=== FILE: README.md ===
# Unit-Converter core in Dafny

This project models the non-visual engine of the Unit-Converter desktop
application and proves properties of it. The engine has five parts:

- **Unit registry and conversion algebra** (`UnitCategory`, `ConversionLogic`).
  There are five fixed categories: Length, Weight, Temperature, Volume and Area.
  Each conversion goes through the category's canonical unit. Linear
  categories scale by decimal factors, and Temperature uses affine maps.
- **Validated value objects** (`ConversionRequest`, `ConversionResult`). Each is
  checked in its constructor, and each has a builder.
- **String and format helpers** (`StringUtils`, `ConverterUtils`).
- **Exchange-rate cache** (`CurrencyConverter`). This is a rate map with one
  global timestamp and a 30-minute lifetime. A miss tries a primary web source
  and then a fallback. A substring search pulls the rate out of the JSON reply.
  Two fixed tables give currency symbols and names.
- **Conversion history** (`DatabaseManager`). This covers the meaning of the
  store's four SQLite statements over an abstract table: INSERT with an
  AUTOINCREMENT id, `ORDER BY conversion_date DESC LIMIT n`, DELETE by id and
  DELETE all. It includes the values the methods return after swallowing an
  `SQLException` on an open connection.

Each Java class of the core is one Dafny module in its own file. Two shared
modules stand in for the JDK:

- `base.dfy`: `Option` stands for a nullable reference and `Result` for
  "returns or throws with a message".
- `java_lang.dfy`: `String.trim`, `indexOf`, `substring`, ASCII case mapping,
  the regex character classes the helpers use, and `Double` (finite, NaN or an
  infinity).

Numbers are Dafny `real`s, so every conversion law holds exactly.

Four things the source gets from outside become explicit parameters:

- `Double.parseDouble` is an oracle `Parser = string -> Option<real>`.
- The text `String.format` and `DecimalFormat` print is passed in as a string.
- The clock is passed in as `now` / `later` readings.
- The HTTP fetch is an oracle `Fetcher = string -> Option<string>`, from URL
  to response body. `None` stands for a failed connection or a non-200 status.

A failing SQL statement is a `storageOk = false` argument.

Two behaviours of the currency converter are worth stating plainly:

- **Cache lifetime.** The cache keeps one timestamp for the whole map, not
  one per entry. Storing a freshly fetched pair re-validates every stored
  pair for the next 30 minutes
  (`CurrencyConverter.RefreshRevalidatesAll`).
- **Same currency.** For an equal pair the amount comes back unchanged. The
  cache is left as it was and the fetcher is not consulted (`CurrencyConverter.SameCurrency`).

## Model

| member | source | states |
|---|---|---|
| UnitCategory.ValuesEnumerateCategories | src/com/unitconverter/models/UnitCategory.java:8-27 | every category is one of the five enum constants |
| UnitCategory.DisplayNamesInDeclarationOrder | src/com/unitconverter/models/UnitCategory.java:78-85 | `getAllDisplayNames` is Length, Weight, Temperature, Volume, Area, in declaration order |
| UnitCategory.AllDisplayNames | src/com/unitconverter/models/UnitCategory.java:78-85 | one name per enum constant, the i-th being the i-th constant's display name |
| UnitCategory.UnitsDistinct | src/com/unitconverter/models/UnitCategory.java:8-27 | no unit name is listed twice within a category |
| UnitCategory.UnitsDisjoint | src/com/unitconverter/models/UnitCategory.java:8-27 | no unit name belongs to two categories |
| UnitCategory.FindByName | src/com/unitconverter/models/UnitCategory.java:68-75 | the loop returns the first constant whose name matches ignoring case, and null exactly when none matches |
| UnitCategory.FromDisplayName | src/com/unitconverter/models/UnitCategory.java:68-75 | a non-null answer matches the name ignoring case; null exactly when no category matches |
| UnitCategory.FromDisplayNameFindsCategory | src/com/unitconverter/models/UnitCategory.java:68-75 | every case variant of a display name finds that category, because the names differ even in lower case |
| UnitCategory.ValidUnitIff | src/com/unitconverter/models/UnitCategory.java:88-91 | `isValidUnitForCategory(n, u)` holds exactly when some category matches n ignoring case and lists u |
| ConversionLogic.CategoryOfKey | src/com/unitconverter/ConversionLogic.java:15-27 | the `switch` selects the category whose exact display name is the key, and none otherwise |
| ConversionLogic.ScaleTableMatchesRegistry | src/com/unitconverter/ConversionLogic.java:40-66 | each linear category's factor table lists the enum's units in order, with positive factors, and the canonical unit first with factor 1 |
| ConversionLogic.FactorMatchesRegistry | src/com/unitconverter/ConversionLogic.java:40-184 | a linear unit has a factor exactly when the category lists it; the factor is positive, and 1 for the canonical unit |
| ConversionLogic.ScaleInverse | src/com/unitconverter/ConversionLogic.java:40-66 | dividing by a factor undoes multiplying by it, and the other way round |
| ConversionLogic.ScaleHomogeneous | src/com/unitconverter/ConversionLogic.java:40-66 | scaling up or down commutes with multiplying the value by a constant |
| ConversionLogic.ToCanonical | src/com/unitconverter/ConversionLogic.java:40-184 | a linear unit converts into the canonical unit exactly when it has a factor; otherwise "Unknown … unit: u" |
| ConversionLogic.FromCanonical | src/com/unitconverter/ConversionLogic.java:40-184 | a linear unit converts out of the canonical unit exactly when it has a factor; otherwise "Unknown … unit: u" |
| ConversionLogic.CanonicalDefinedIff | src/com/unitconverter/ConversionLogic.java:40-184 | both helpers succeed exactly for the category's listed units, and are the identity on the canonical unit |
| ConversionLogic.CanonicalRoundTrip | src/com/unitconverter/ConversionLogic.java:40-184 | for every listed unit, `fromX(u, toX(u, v)) == v` and `toX(u, fromX(u, v)) == v` |
| ConversionLogic.TemperatureRoundTrip | src/com/unitconverter/ConversionLogic.java:110-126 | the Fahrenheit and Kelvin affine maps invert each other through Celsius |
| ConversionLogic.ScaleRoundTrip | src/com/unitconverter/ConversionLogic.java:40-66 | multiplying by a unit's factor and then dividing by it returns the value |
| ConversionLogic.Convert | src/com/unitconverter/ConversionLogic.java:10-28 | equal unit names return the input before the category is looked at; with distinct units an unknown category fails with "Unknown category: c" |
| ConversionLogic.ConvertDefinedIff | src/com/unitconverter/ConversionLogic.java:10-28 | with distinct units of a known category, `convert` succeeds exactly when the category lists both units |
| ConversionLogic.ConvertUnknownUnit | src/com/unitconverter/ConversionLogic.java:40-184 | an unlisted source unit fails with its own message; otherwise an unlisted target unit fails with the target's message |
| ConversionLogic.ConvertViaCanonical | src/com/unitconverter/ConversionLogic.java:32-184 | every conversion between listed units is `fromX(to, toX(from, v))` |
| ConversionLogic.ConvertTotalOnRegistry | src/com/unitconverter/ConversionLogic.java:10-28 | an exact display name with two of its listed units never throws |
| ConversionLogic.ConvertRoundTrip | src/com/unitconverter/ConversionLogic.java:10-184 | converting a to b and back returns the original value |
| ConversionLogic.ConvertComposes | src/com/unitconverter/ConversionLogic.java:10-184 | converting a to b and then b to d equals converting a to d |
| ConversionLogic.ConvertScales | src/com/unitconverter/ConversionLogic.java:40-184 | a linear conversion multiplies by the source factor and divides by the target factor |
| ConversionLogic.ConvertByRatio | src/com/unitconverter/ConversionLogic.java:40-184 | a linear conversion multiplies the value by one fixed ratio per unit pair, so it is homogeneous |
| ConversionLogic.ConvertZero | src/com/unitconverter/ConversionLogic.java:40-184 | a linear conversion maps 0 to 0 |
| ConversionLogic.FactorPositive | src/com/unitconverter/ConversionLogic.java:40-184 | every factor literal is positive |
| ConversionLogic.TemperatureSpotValues | src/com/unitconverter/ConversionLogic.java:110-126 | 0 °C is 32 °F and 273.15 K; 212 °F is 100 °C; 0 K is -459.67 °F |
| ConversionLogic.LinearSpotValues | src/com/unitconverter/ConversionLogic.java:77-99 | 1 kg is 1/0.453592 lb, within 1e-4 of 2.20462; 1 mile is 5280 feet; Meter to Meter is the identity |
| ConversionLogic.LowercaseNameDiverges | src/com/unitconverter/ConversionLogic.java:15-27 | "length" passes `isValidUnitForCategory` but `convert` rejects it for distinct units, because the `switch` is case-sensitive |
| ConversionRequest.FirstFailure | src/com/unitconverter/models/ConversionRequest.java:24-47 | the message is that of the first failed check; none exactly when every check passes |
| ConversionRequest.NewRequest | src/com/unitconverter/models/ConversionRequest.java:14-47 | construction succeeds exactly when the value is finite, the three strings are non-blank and the sign is allowed; the request stores the arguments and the clock reading |
| ConversionRequest.FirstFailedCheckWins | src/com/unitconverter/models/ConversionRequest.java:25-46 | the thrown message is the first failure, in the order finiteness, source unit, target unit, category, sign |
| ConversionRequest.NegativeOnlyForTemperature | src/com/unitconverter/models/ConversionRequest.java:42-44 | a negative value is accepted exactly for the case-sensitive category "Temperature"; zero is always accepted |
| ConversionRequest.EqualsIgnoresTimestamp | src/com/unitconverter/models/ConversionRequest.java:88-98 | `equals` holds exactly when the requests agree in everything but the timestamp |
| ConversionRequest.RebuiltRequestsAreEqual | src/com/unitconverter/models/ConversionRequest.java:14-22 | the same arguments at two clock readings give requests that are `equals` but not identical |
| ConversionRequest.RequestBuilder.Build | src/com/unitconverter/models/ConversionRequest.java:140-142 | `build` succeeds under the constructor's conditions and keeps every set field |
| ConversionRequest.DefaultRequestBuilderFails | src/com/unitconverter/models/ConversionRequest.java:114-143 | an untouched builder fails on the source unit, and one with only a source unit fails on the target unit |
| ConversionRequest.BuilderMatchesConstructor | src/com/unitconverter/models/ConversionRequest.java:140-142 | a fully set builder yields what the constructor yields |
| ConversionResult.NewSuccess | src/com/unitconverter/models/ConversionResult.java:19-26 | the success constructor accepts exactly the finite values, rejecting NaN then infinity; it sets `success` and a null message |
| ConversionResult.IsSelfConversion | src/com/unitconverter/models/ConversionResult.java:106-108 | true exactly for a success whose request is a self-conversion; a success without a request throws |
| ConversionResult.Efficiency | src/com/unitconverter/models/ConversionResult.java:111-117 | 0 for a failure or a zero time; otherwise a value e with e·time = 1000 |
| ConversionResult.ErrorObservations | src/com/unitconverter/models/ConversionResult.java:69-103 | a failed result is no self-conversion, has efficiency 0, formats as "Conversion failed" and summarises as "ERROR: " plus its message ("null" for none) |
| ConversionResult.NewError | src/com/unitconverter/models/ConversionResult.java:29-35 | the error constructor validates nothing and sets `success` false, value 0 and time 0 |
| ConversionResult.ErrorIsErrorConstructor | src/com/unitconverter/models/ConversionResult.java:184-186 | `error(r, m)` is the two-argument constructor, and differs from every success |
| ConversionResult.EfficiencyDecreasing | src/com/unitconverter/models/ConversionResult.java:111-117 | for successes with positive times, a longer time gives a smaller positive efficiency |
| ConversionResult.ResultBuilder.Build | src/com/unitconverter/models/ConversionResult.java:175-181 | `build` succeeds exactly for a finite value, and never yields a negative time |
| ConversionResult.DefaultResultBuilderBuilds | src/com/unitconverter/models/ConversionResult.java:155-181 | an untouched builder yields a success with value 0, time 0 and no request |
| ConversionResult.BuilderClampsTime | src/com/unitconverter/models/ConversionResult.java:170-181 | a non-negative time is kept, and a negative one acts as 0 |
| ConverterUtils.IsValidNumber | src/com/unitconverter/ConverterUtils.java:13-24 | true exactly when the text is non-null, non-blank and its trimmed form parses |
| ConverterUtils.WhitespaceIsNotANumber | src/com/unitconverter/ConverterUtils.java:14-16 | null and whitespace-only text are never valid numbers |
| ConverterUtils.ValidNumberIgnoresPadding | src/com/unitconverter/ConverterUtils.java:13-24 | surrounding whitespace does not change whether the text is a number |
| ConverterUtils.AreUnitsDifferent | src/com/unitconverter/ConverterUtils.java:27-29 | throws exactly for a null source unit; otherwise true exactly when the units are not equal |
| ConverterUtils.DifferentIffNotSelf | src/com/unitconverter/ConverterUtils.java:27-29 | for a request, "units different" is the negation of `isSelfConversion` |
| ConverterUtils.Capitalize | src/com/unitconverter/ConverterUtils.java:62-67 | null stays null and length is kept; the first character is upper-cased and the rest lower-cased |
| ConverterUtils.CapitalizeIdempotent | src/com/unitconverter/ConverterUtils.java:62-67 | capitalising twice equals capitalising once, and the result equals the input ignoring case |
| ConverterUtils.CategoryDescriptionMatchesEnum | src/com/unitconverter/ConverterUtils.java:81-90 | each category's description agrees with the enum's ignoring case, but not exactly |
| ConverterUtils.CategoryDescriptionDefault | src/com/unitconverter/ConverterUtils.java:81-90 | any name that is not an exact display name gets "Unit Conversions" |
| ConverterUtils.FormatPolicy | src/com/unitconverter/ConverterUtils.java:32-52 | the branch of `formatResult`: NaN reaches the 2-decimal branch and an infinity the scientific one; only the 8/6/4 branches trim |
| ConverterUtils.FormatPolicyPartition | src/com/unitconverter/ConverterUtils.java:33-51 | zero, scientific (below 1e-6 or above 1e6 in magnitude) and fixed-point partition the finite values, with decimals set by decade band |
| ConverterUtils.FormatPolicyMonotone | src/com/unitconverter/ConverterUtils.java:43-51 | a larger magnitude never gets more decimals, and the sign does not matter |
| ConverterUtils.TrimFractionZeros | src/com/unitconverter/ConverterUtils.java:44-48 | the result is a prefix of the input, and only trailing zeros and one final point are removed; the removal is maximal: if the result still ends in a zero or a point, the next input character is the decimal point that was removed |
| ConverterUtils.TrimKeepsIntegerPart | src/com/unitconverter/ConverterUtils.java:44-48 | with a decimal point in the text, no digit before it is removed |
| ConverterUtils.ZeroFractionRemoved | src/com/unitconverter/ConverterUtils.java:44-48 | "n.000…" trims to "n" |
| ConverterUtils.NonZeroLastDigitKept | src/com/unitconverter/ConverterUtils.java:44-48 | text ending in anything but '0' or '.' is left unchanged |
| ConverterUtils.FormatResult | src/com/unitconverter/ConverterUtils.java:32-52 | zero prints "0"; the scientific and 2-decimal prints are unchanged; every output is a prefix of the print |
| StringUtils.NullOrEmptyIff | src/com/unitconverter/utils/StringUtils.java:10-17 | `isNullOrEmpty` and `isBlank` hold exactly for null or whitespace-only text |
| StringUtils.Words | src/com/unitconverter/utils/StringUtils.java:20-37 | splitting on whitespace runs yields only non-empty words |
| StringUtils.WordsOfUnwords | src/com/unitconverter/utils/StringUtils.java:93-99 | joining words with single spaces and splitting again gives the words back |
| StringUtils.CapitalizeWords | src/com/unitconverter/utils/StringUtils.java:20-37 | blank input comes back unchanged, and null stays null |
| StringUtils.CapitalizeWordsSpec | src/com/unitconverter/utils/StringUtils.java:20-37 | for non-blank text whose characters at or below U+0020 are all `\s` whitespace, the result is the text's words, each capitalised, joined by single spaces (other control characters are trimmed at the ends but do not split words, so the lemma does not cover them) |
| StringUtils.CapitalizeWordsOfUnwords | src/com/unitconverter/utils/StringUtils.java:20-37 | for space-joined words, the result is the same words capitalised |
| StringUtils.WordCount | src/com/unitconverter/utils/StringUtils.java:93-99 | 0 exactly for blank text; otherwise the number of whitespace-separated words |
| StringUtils.WordCountOfUnwords | src/com/unitconverter/utils/StringUtils.java:93-99 | n words joined by spaces count as n |
| StringUtils.CapitalizeWordsKeepsCount | src/com/unitconverter/utils/StringUtils.java:20-37 | capitalising words does not change the word count |
| StringUtils.ToTitleCase | src/com/unitconverter/utils/StringUtils.java:40-61 | blank input comes back unchanged, and the length is kept |
| StringUtils.ToTitleCaseSpec | src/com/unitconverter/utils/StringUtils.java:40-61 | each character is upper-cased after a space or at the start and lower-cased elsewhere, and spaces stay where they were |
| StringUtils.RemoveNonAlphanumeric | src/com/unitconverter/utils/StringUtils.java:64-69 | blank input comes back unchanged; otherwise only letters and digits remain |
| StringUtils.KeepAlphanumericCounts | src/com/unitconverter/utils/StringUtils.java:64-69 | each letter or digit keeps its number of occurrences, and every other character disappears |
| StringUtils.RemoveNonAlphanumericIdempotent | src/com/unitconverter/utils/StringUtils.java:64-69 | removing twice equals removing once |
| StringUtils.Truncate | src/com/unitconverter/utils/StringUtils.java:72-82 | blank or short text comes back unchanged; a longer one gets exactly `max` characters, ending in "..." when `max` > 3; a negative `max` on long text throws |
| StringUtils.TruncateBoundedIdempotent | src/com/unitconverter/utils/StringUtils.java:72-82 | a truncated text is at most `max` long and truncating it again changes nothing |
| StringUtils.Reversed | src/com/unitconverter/utils/StringUtils.java:85-90 | position i of the result is position n-1-i of the input |
| StringUtils.Reverse | src/com/unitconverter/utils/StringUtils.java:85-90 | blank input comes back unchanged, and the length is kept |
| StringUtils.ReverseInvolution | src/com/unitconverter/utils/StringUtils.java:85-90 | reversing twice gives the input back |
| StringUtils.NumericIff | src/com/unitconverter/utils/StringUtils.java:102-107 | `isNumeric` holds exactly for non-empty text made only of ASCII digits |
| StringUtils.DecimalRoundTrip | src/com/unitconverter/utils/StringUtils.java:110-115 | every sign, digit run and optional digit fraction prints as a decimal that parses back into the same parts |
| StringUtils.DecimalShape | src/com/unitconverter/utils/StringUtils.java:110-115 | every text `isDecimal` accepts has the form `-?digits(.digits)?` |
| StringUtils.NumericIsDecimal | src/com/unitconverter/utils/StringUtils.java:102-115 | every numeric text is a decimal |
| StringUtils.PadString | src/com/unitconverter/utils/StringUtils.java:118-143 | null pads as ""; the length is max(len, length); left padding is pad characters then the text, right padding the mirror |
| StringUtils.PadStringIdempotent | src/com/unitconverter/utils/StringUtils.java:118-143 | padding padded text to the same or a shorter length changes nothing |
| StringUtils.ToSafeFileName | src/com/unitconverter/utils/StringUtils.java:146-161 | the result is never empty |
| StringUtils.ToSafeFileNameIsSafe | src/com/unitconverter/utils/StringUtils.java:146-161 | the result uses only `[A-Za-z0-9._-]`, has no "__" and no leading or trailing '_' |
| StringUtils.ToSafeFileNameFallback | src/com/unitconverter/utils/StringUtils.java:146-161 | blank text gives "untitled", and so does non-blank text with no `[A-Za-z0-9.-]` character; otherwise the name's characters other than '_' are exactly the input's `[A-Za-z0-9.-]` characters, in order |
| StringUtils.SafeFileNameFixes | src/com/unitconverter/utils/StringUtils.java:146-161 | an already safe name is returned unchanged |
| StringUtils.ToSafeFileNameIdempotent | src/com/unitconverter/utils/StringUtils.java:146-161 | sanitising twice equals sanitising once |
| StringUtils.Join | src/com/unitconverter/utils/StringUtils.java:170-186 | a null or empty array joins to "" |
| StringUtils.JoinWithoutNulls | src/com/unitconverter/utils/StringUtils.java:170-186 | with a non-null last entry, `join` is the non-null entries with one delimiter between each pair |
| StringUtils.JoinTrailingNull | src/com/unitconverter/utils/StringUtils.java:176-183 | with a null last entry, `join` leaves one extra delimiter at the end |
| StringUtils.JoinTrailingNullExample | src/com/unitconverter/utils/StringUtils.java:176-183 | `join(",", "a", null)` is "a," where "a" is intended |
| StringUtils.JoinNonNull | src/com/unitconverter/utils/StringUtils.java:170-186 | the intended join: null entries skipped, delimiters only between kept entries |
| StringUtils.SplitCamelSpec | src/com/unitconverter/utils/StringUtils.java:189-195 | exactly one space is inserted per lower-upper pair, no such pair remains, and the non-space characters are unchanged |
| StringUtils.SplitCamelAt | src/com/unitconverter/utils/StringUtils.java:189-195 | position by position: `s[i]` lands after the pairs that end at or before it, and a space follows `s[i]` exactly when `s[i]`,`s[i+1]` is a lower-upper pair |
| StringUtils.SplitCamelFixes | src/com/unitconverter/utils/StringUtils.java:189-195 | text without a lower-upper pair is unchanged |
| StringUtils.SplitCamelCase | src/com/unitconverter/utils/StringUtils.java:189-195 | blank input comes back unchanged, and null stays null |
| StringUtils.SplitCamelCaseIdempotent | src/com/unitconverter/utils/StringUtils.java:189-195 | splitting twice equals splitting once |
| CurrencyConverter.ClearIsInitial | src/com/unitconverter/network/CurrencyConverter.java:240-243 | a cleared cache is the initial one, and nothing is a hit in it |
| CurrencyConverter.FallbackNamesFrankfurter | src/com/unitconverter/network/CurrencyConverter.java:13 | the fallback URL constant contains "frankfurter", the text the URL choice tests for |
| CurrencyConverter.UrlChoice | src/com/unitconverter/network/CurrencyConverter.java:81-85 | the primary URL gets only the source code appended; the fallback URL (it contains "frankfurter") gets `from&to=to` |
| CurrencyConverter.ParseExchangeRate | src/com/unitconverter/network/CurrencyConverter.java:124-162 | without a `"rates"` marker, or without the quoted target code after it, the rate is 0 |
| CurrencyConverter.FetchExchangeRate | src/com/unitconverter/network/CurrencyConverter.java:78-114 | a failed request (no connection, or a status other than 200) yields rate 0 |
| CurrencyConverter.ParseReadsRate | src/com/unitconverter/network/CurrencyConverter.java:124-162 | when the first `"rates"` is at h, the first `"TO"` after h is the entry `"TO":`, and a value free of ',' and '}' follows it, ending at ',' or '}' with a '}' later, the rate is the parse of the trimmed value, or 0 if it does not parse; other fields and other codes may come before it |
| CurrencyConverter.ParseNeedsClosingBrace | src/com/unitconverter/network/CurrencyConverter.java:147-162 | with the same first `"rates"` and first `"TO":` entry, a value followed by ',' and no '}' after the entry yields 0, since the '}' search fails first |
| CurrencyConverter.ConvertCurrency | src/com/unitconverter/network/CurrencyConverter.java:45-69 | a failure carries the "Unable to fetch…" message and leaves the cache alone; a change stores one key and the new timestamp; positive rates stay positive |
| CurrencyConverter.SameCurrency | src/com/unitconverter/network/CurrencyConverter.java:46-48 | an equal pair returns the amount without fetching or touching the cache |
| CurrencyConverter.CacheHit | src/com/unitconverter/network/CurrencyConverter.java:50-53 | a fresh stored pair returns amount·rate, fetches nothing and keeps the cache |
| CurrencyConverter.PrimaryFirst | src/com/unitconverter/network/CurrencyConverter.java:55-59 | on a miss with a positive primary rate, the fallback is never consulted and that rate is stored |
| CurrencyConverter.FallbackDecides | src/com/unitconverter/network/CurrencyConverter.java:57-63 | a non-positive primary rate hands over to the fallback; a non-positive fallback throws |
| CurrencyConverter.RefreshRevalidatesAll | src/com/unitconverter/network/CurrencyConverter.java:65-68 | after a successful fetch, the new pair and every pair already stored are hits for the next 30 minutes |
| CurrencyConverter.TablesCoverSupported | src/com/unitconverter/network/CurrencyConverter.java:20-35 | the symbol and name tables cover exactly the ten supported codes, and an unknown code falls back to itself |
| CurrencyConverter.NamesDistinctSymbolsNot | src/com/unitconverter/network/CurrencyConverter.java:186-200 | names differ between codes, but JPY and CNY share "¥" |
| DatabaseManager.Save | src/com/unitconverter/DatabaseManager.java:52-70 | a failed statement or a null text column changes nothing; otherwise exactly one row is appended with the given fields, the clock reading and a fresh id |
| DatabaseManager.SortByDate | src/com/unitconverter/DatabaseManager.java:243 | `ORDER BY conversion_date DESC` is a permutation of the rows with non-increasing dates |
| DatabaseManager.History | src/com/unitconverter/DatabaseManager.java:241-267 | min(limit, rows) rows (all for a negative limit), newest first, all taken from the table; empty after a failed query |
| DatabaseManager.RecentHistory | src/com/unitconverter/DatabaseManager.java:73-98 | the no-argument form is limit 50 |
| DatabaseManager.HistoryIsNewest | src/com/unitconverter/DatabaseManager.java:241-267 | no row left out of the history is newer than a row in it |
| DatabaseManager.UnlimitedHistoryIsTable | src/com/unitconverter/DatabaseManager.java:241-267 | with a negative limit the history holds exactly the table's rows |
| DatabaseManager.SavedRowHeadsHistory | src/com/unitconverter/DatabaseManager.java:52-70 | a row saved later than every other is the first history row, with id one above the last issued |
| DatabaseManager.DeleteConversion | src/com/unitconverter/DatabaseManager.java:214-225 | true exactly when the statement ran and a row had that id; only that row goes; the id counter is kept; a failure changes nothing |
| DatabaseManager.RemoveIdAt | src/com/unitconverter/DatabaseManager.java:214-225 | deleting the id of row i leaves the other rows in their order |
| DatabaseManager.DeleteRemovesOneRow | src/com/unitconverter/DatabaseManager.java:214-225 | deleting an existing id returns true and removes exactly that row |
| DatabaseManager.DeleteAllConversions | src/com/unitconverter/DatabaseManager.java:228-238 | true exactly when the statement runs, and then the table is empty but the id counter is kept |
| DatabaseManager.IdsNeverReused | src/com/unitconverter/DatabaseManager.java:28-36 | after any delete, the next saved row gets an id above every id in the old table (AUTOINCREMENT) |

## Left out

- The Swing user interface (`HistoryPanel`, `ConverterApp`, `AboutDialog`, `Main`): it is layout and event glue that only calls the operations modelled here.
- `BackgroundTask`: SwingWorker threads, reflection and sleeps; its progress clamp only affects display.
- The HTTP part of `fetchExchangeRate` (connection, timeouts, status check, line reading), `isInternetAvailable` and `showNetworkStatus`: these are I/O, replaced by the fetch oracle.
- JDBC driver loading, table creation, `getConnection`, `close` and `showHistory`: setup and display. The four statements are modelled on an open connection.
- A connection that never opened: when `initializeDatabase` fails (driver missing, or `getConnection` throws), its handlers only log and `connection` stays null. Then `saveConversion`, both `getConversionHistory` overloads, `deleteConversion` and `deleteAllConversions` throw an uncaught `NullPointerException` at `connection.prepareStatement`/`createStatement`, because their `catch` clauses take only `SQLException`. The model has no null connection: `storageOk = false` stands only for an `SQLException` on an open connection.
- IEEE-754 rounding, -0.0 and overflow: values are reals, so the round-trip and homogeneity laws hold exactly here and only approximately in Java.
- ConversionLogic.ConvertByRatio: homogeneity `convert(c,a,b,k·v) == k·convert(c,a,b,v)` is stated as "multiply by a fixed ratio" rather than with the factor k, because the direct form was too costly for the prover.
- CurrencyConverter.ParseExchangeRate: a NaN from `parseDouble` is not representable; in Java a NaN rate passes `rate <= 0` as false and would be cached.
- The digits `String.format` and `DecimalFormat` print (`formatResult`'s text, `getFormattedResult`'s success text, `getSummary`'s success text, `formatNumber`, `createProgressBar`, `getFormattedDate`, `getDescription`, `getKey`, `toString`, `hashCode`): they enter as parameters.
- `InvalidUnitException`: it only builds message strings, and the conversion and validation paths never use it.
- Unicode case mapping and surrogate pairs: `toUpperCase`, `toLowerCase` and `reverse` are modelled on ASCII and single characters.
- Null arguments: the model takes plain strings, so Java `null` strings are not represented. In the source, a null source unit in `convert`, a null source code in `convertCurrency` and a null `getCategoryDescription` argument throw a `NullPointerException`. A null category in `convert` throws only when the units differ, since equal units return the value first. A null target unit throws in the target-unit `switch` once the source unit is known. A null target code in `convertCurrency` is concatenated as "null" into the cache key, the request URL and the reply search, so it behaves like an unknown code named "null". `getCurrencySymbol(null)` and `getCurrencyName(null)` return null, since a `HashMap` accepts a null key and `getOrDefault` returns the null default.
- Java `int` and `long` widths: ids and times are unbounded integers.
- DatabaseManager.History: the order among rows with equal dates is unspecified in SQLite; the model fixes one admissible order, and its lemmas hold for any.
- DatabaseManager.History: an error part-way through reading the rows returns the rows read so far; the model returns all or nothing.
- DatabaseManager.Save: `NOT NULL` on the two `REAL` columns rejects a NaN in SQLite; doubles are reals here, so only null text columns are modelled as rejected.
- CurrencyConverter.ParseExchangeRate: when the code is present but no ':' follows it, `indexOf` gives -1 and the value is read from the start of the reply; the model computes this too but states no lemma about it.
- StringUtils.CapitalizeWordsSpec: stated only for text whose characters at or below U+0020 are `\s` whitespace. For other control characters `trim` and `split("\\s+")` disagree (`"\u0001a"` gives "a", not "A"); the function models that case, but no lemma describes it.
- `ConversionRequest.Builder` and `ConversionResult.Builder` mutate their fields and return `this`; the model uses immutable updates.

## Findings

| source | as written | input that shows it | evidently intended | confidence | as-written member | corrected member |
|---|---|---|---|---|---|---|
| src/com/unitconverter/utils/StringUtils.java:176-183 | `join` appends the delimiter after each non-null entry except at the last index, so a null last entry leaves a trailing delimiter | `join(",", "a", null)` returns "a," | "a": delimiters only between the entries actually joined | not executed | StringUtils.JoinTrailingNull | StringUtils.JoinNonNull |

=== FILE: base.dfy ===
/** Values shared by every module of the model: a Java reference that may be
    `null`, and the outcome of a Java call that either returns or throws. */
module Base {

  /** A Java reference: `None` is `null`. */
  datatype Option<+T> = None | Some(value: T)

  /** A Java call that returns `value`, or throws an exception whose message is
      `message`. */
  datatype Result<+T> = Ok(value: T) | Err(message: string)
}

=== FILE: conversion_logic.dfy ===
/** The conversion algebra of `ConversionLogic`: every conversion goes from the
    source unit to the category's canonical unit and from there to the target
    unit. Values are exact reals, so the source's decimal literals are exact. */
module ConversionLogic {
  import opened Base
  import opened UnitCategory
  import opened JavaLang

  /** The case-sensitive `switch (category)` of `convert`. */
  function CategoryOfKey(category: string): (r: Option<Category>)
    ensures r.Some? ==> r.value.DisplayName() == category
    ensures r.None? ==> forall c: Category :: c.DisplayName() != category
  {
    match category
    case "Length" => Some(Length)
    case "Weight" => Some(Weight)
    case "Temperature" => Some(Temperature)
    case "Volume" => Some(Volume)
    case "Area" => Some(Area)
    case _ =>
      assert forall c: Category :: c.DisplayName() != category by {
        forall c: Category ensures c.DisplayName() != category {
          ValuesEnumerateCategories(c);
        }
      }
      None
  }

  /** The scale table of the `toX`/`fromX` switches of a category converted by
      scaling (every category but Temperature): each unit with the number of
      canonical units one of it is. */
  function ScaleTable(c: Category): seq<(string, real)>
    requires c != Temperature
  {
    match c
    case Length =>
      [("Meter", 1.0), ("Kilometer", 1000.0), ("Centimeter", 0.01), ("Millimeter", 0.001),
       ("Mile", 1609.344), ("Yard", 0.9144), ("Foot", 0.3048), ("Inch", 0.0254)]
    case Weight =>
      [("Kilogram", 1.0), ("Gram", 0.001), ("Milligram", 0.000001), ("Pound", 0.453592),
       ("Ounce", 0.0283495), ("Ton", 1000.0)]
    case Volume =>
      [("Liter", 1.0), ("Milliliter", 0.001), ("Gallon", 3.78541), ("Cubic Meter", 1000.0)]
    case Area =>
      [("Square Meter", 1.0), ("Square Kilometer", 1000000.0), ("Acre", 4046.86), ("Hectare", 10000.0)]
  }

  /** The factor of the first entry of `table` named `unit`: the `case` a
      `switch` on the unit name selects. */
  function Lookup(table: seq<(string, real)>, unit: string): Option<real> {
    if |table| == 0 then None
    else if table[0].0 == unit then Some(table[0].1)
    else Lookup(table[1..], unit)
  }

  /** `Lookup` finds a factor exactly when some entry carries the name, and the
      factor it finds is that entry's. */
  lemma {:induction false} LookupFinds(table: seq<(string, real)>, unit: string)
    ensures Lookup(table, unit).Some? <==> exists i :: 0 <= i < |table| && table[i].0 == unit
    ensures Lookup(table, unit).Some? ==> exists i :: 0 <= i < |table| && table[i] == (unit, Lookup(table, unit).value)
  {
    if |table| > 0 && table[0].0 != unit {
      LookupFinds(table[1..], unit);
      assert forall i :: 0 < i < |table| ==> table[i] == table[1..][i - 1];
      if Lookup(table, unit).Some? {
        var i :| 0 <= i < |table[1..]| && table[1..][i] == (unit, Lookup(table, unit).value);
        assert table[i + 1] == (unit, Lookup(table, unit).value);
      }
    }
  }

  /** How many canonical units one `unit` is, if the category's table lists it. */
  function Factor(c: Category, unit: string): Option<real>
    requires c != Temperature
  {
    Lookup(ScaleTable(c), unit)
  }

  /** The scale tables name exactly the registry's units, in the same order,
      and every factor is positive. */
  lemma ScaleTableMatchesRegistry(c: Category)
    requires c != Temperature
    ensures |ScaleTable(c)| == |c.SupportedUnits()|
    ensures forall i :: 0 <= i < |ScaleTable(c)| ==> ScaleTable(c)[i].0 == c.SupportedUnits()[i]
    ensures forall i :: 0 <= i < |ScaleTable(c)| ==> ScaleTable(c)[i].1 > 0.0
    ensures ScaleTable(c)[0] == (c.CanonicalUnit(), 1.0)
  {
  }

  /** A unit has a factor exactly when its category lists it, every factor is
      positive, and the canonical unit's factor is 1. */
  lemma FactorMatchesRegistry(c: Category, unit: string)
    requires c != Temperature
    ensures Factor(c, unit).Some? <==> c.SupportsUnit(unit)
    ensures Factor(c, unit).Some? ==> Factor(c, unit).value > 0.0
    ensures Factor(c, c.CanonicalUnit()) == Some(1.0)
  {
    ScaleTableMatchesRegistry(c);
    var t := ScaleTable(c);
    LookupFinds(t, unit);
    LookupFinds(t, c.CanonicalUnit());
    if c.SupportsUnit(unit) {
      var i :| 0 <= i < |c.SupportedUnits()| && c.SupportedUnits()[i] == unit;
      assert t[i].0 == unit;
    }
    if Factor(c, unit).Some? {
      var i :| 0 <= i < |t| && t[i] == (unit, Factor(c, unit).value);
      assert c.SupportedUnits()[i] == unit;
    }
    assert t[0].0 == c.CanonicalUnit();
  }

  /** The lower-case word the source's "Unknown ... unit" messages use. */
  function UnitNoun(c: Category): string {
    match c
    case Length => "length"
    case Weight => "weight"
    case Temperature => "temperature"
    case Volume => "volume"
    case Area => "area"
  }

  /** The message of the `IllegalArgumentException` a `toX`/`fromX` switch
      throws for a unit it does not list. */
  function UnknownUnit(c: Category, unit: string): string {
    "Unknown " + UnitNoun(c) + " unit: " + unit
  }

  // Scaling by a factor (`Times`) and undoing it (`Over`): the facts the
  // conversions need about them (cancellation, homogeneity) are stated once
  // below.

  lemma TimesOverCancel(value: real, factor: real)
    requires factor != 0.0
    ensures Over(Times(value, factor), factor) == value
    ensures Times(Over(value, factor), factor) == value
  {
  }

  lemma TimesOverHomogeneous(k: real, value: real, factor: real)
    requires factor != 0.0
    ensures Times(k * value, factor) == k * Times(value, factor)
    ensures Over(k * value, factor) == k * Over(value, factor)
  {
  }

  /** The scaling branch of a `toX` switch: multiply by the unit's factor, or
      throw when the switch has no case for the unit. */
  function ScaleUp(factor: Option<real>, value: real, error: string): (r: Result<real>)
    ensures r.Ok? <==> factor.Some?
    ensures r.Err? ==> r.message == error
  {
    match factor
    case Some(f) => Ok(Times(value, f))
    case None => Err(error)
  }

  /** The scaling branch of a `fromX` switch: divide by the unit's factor. */
  function ScaleDown(factor: Option<real>, value: real, error: string): (r: Result<real>)
    requires factor.Some? ==> factor.value != 0.0
    ensures r.Ok? <==> factor.Some?
    ensures r.Err? ==> r.message == error
  {
    match factor
    case Some(f) => Ok(Over(value, f))
    case None => Err(error)
  }

  /** Dividing by a non-zero factor undoes multiplying by it, both ways round. */
  lemma ScaleInverse(factor: Option<real>, value: real, error: string)
    requires factor.Some? && factor.value != 0.0
    ensures ScaleDown(factor, ScaleUp(factor, value, error).value, error) == Ok(value)
    ensures ScaleUp(factor, ScaleDown(factor, value, error).value, error) == Ok(value)
  {
    TimesOverCancel(value, factor.value);
  }

  /** Both scaling branches commute with multiplying the input by a constant. */
  lemma ScaleHomogeneous(factor: Option<real>, k: real, value: real, error: string)
    requires factor.Some? && factor.value != 0.0
    ensures ScaleUp(factor, k * value, error).value == k * ScaleUp(factor, value, error).value
    ensures ScaleDown(factor, k * value, error).value == k * ScaleDown(factor, value, error).value
  {
    TimesOverHomogeneous(k, value, factor.value);
  }

  /** `toMeters`, `toKilograms`, `toCelsius`, `toLiters`, `toSquareMeters`. */
  function ToCanonical(c: Category, unit: string, value: real): (r: Result<real>)
    ensures c != Temperature ==> (r.Ok? <==> Factor(c, unit).Some?)
    ensures r.Err? ==> r.message == UnknownUnit(c, unit)
  {
    if c == Temperature then
      match unit
      case "Celsius" => Ok(value)
      case "Fahrenheit" => Ok((value - 32.0) * 5.0 / 9.0)
      case "Kelvin" => Ok(value - 273.15)
      case _ => Err("Unknown temperature unit: " + unit)
    else
      ScaleUp(Factor(c, unit), value, UnknownUnit(c, unit))
  }

  /** `fromMeters`, `fromKilograms`, `fromCelsius`, `fromLiters`, `fromSquareMeters`. */
  function FromCanonical(c: Category, unit: string, value: real): (r: Result<real>)
    ensures c != Temperature ==> (r.Ok? <==> Factor(c, unit).Some?)
    ensures r.Err? ==> r.message == UnknownUnit(c, unit)
  {
    if c == Temperature then
      match unit
      case "Celsius" => Ok(value)
      case "Fahrenheit" => Ok(value * 9.0 / 5.0 + 32.0)
      case "Kelvin" => Ok(value + 273.15)
      case _ => Err("Unknown temperature unit: " + unit)
    else
      FactorPositive(c, unit);
      ScaleDown(Factor(c, unit), value, UnknownUnit(c, unit))
  }

  /** `toX` and `fromX` accept exactly the units the registry lists for the
      category, and the canonical unit maps to itself unchanged. */
  lemma CanonicalDefinedIff(c: Category, unit: string, value: real)
    ensures ToCanonical(c, unit, value).Ok? <==> c.SupportsUnit(unit)
    ensures FromCanonical(c, unit, value).Ok? <==> c.SupportsUnit(unit)
    ensures ToCanonical(c, c.CanonicalUnit(), value) == Ok(value)
    ensures FromCanonical(c, c.CanonicalUnit(), value) == Ok(value)
  {
    if c != Temperature {
      FactorMatchesRegistry(c, unit);
      FactorMatchesRegistry(c, c.CanonicalUnit());
    }
  }

  /** `toX` and `fromX` are inverse maps on every supported unit, in both
      orders. */
  lemma CanonicalRoundTrip(c: Category, unit: string, value: real)
    requires c.SupportsUnit(unit)
    ensures ToCanonical(c, unit, value).Ok? && FromCanonical(c, unit, value).Ok?
    ensures FromCanonical(c, unit, ToCanonical(c, unit, value).value) == Ok(value)
    ensures ToCanonical(c, unit, FromCanonical(c, unit, value).value) == Ok(value)
  {
    if c == Temperature {
      TemperatureRoundTrip(unit, value);
    } else {
      FactorMatchesRegistry(c, unit);
      ScaleRoundTrip(c, unit, value);
    }
  }

  lemma TemperatureRoundTrip(unit: string, value: real)
    requires Temperature.SupportsUnit(unit)
    ensures FromCanonical(Temperature, unit, ToCanonical(Temperature, unit, value).value) == Ok(value)
    ensures ToCanonical(Temperature, unit, FromCanonical(Temperature, unit, value).value) == Ok(value)
  {
  }

  lemma ScaleRoundTrip(c: Category, unit: string, value: real)
    requires c != Temperature && Factor(c, unit).Some?
    ensures FromCanonical(c, unit, ToCanonical(c, unit, value).value) == Ok(value)
    ensures ToCanonical(c, unit, FromCanonical(c, unit, value).value) == Ok(value)
  {
    FactorPositive(c, unit);
    ScaleInverse(Factor(c, unit), value, UnknownUnit(c, unit));
  }

  /** `ConversionLogic.convert`. Equal unit names return the input before the
      category is even looked at; otherwise the category selects the table and
      the value goes through the canonical unit. */
  function Convert(category: string, fromUnit: string, toUnit: string, value: real): (r: Result<real>)
    ensures fromUnit == toUnit ==> r == Ok(value)
    ensures fromUnit != toUnit && CategoryOfKey(category).None? ==>
              r == Err("Unknown category: " + category)
  {
    if fromUnit == toUnit then Ok(value)
    else
      match CategoryOfKey(category)
      case None => Err("Unknown category: " + category)
      case Some(c) =>
        match ToCanonical(c, fromUnit, value)
        case Err(m) => Err(m)
        case Ok(base) => FromCanonical(c, toUnit, base)
  }

  // ---------------------------------------------------------------------------
  // Properties of `convert`

  /** With distinct units of a known category, `convert` succeeds exactly when
      the category lists both units. */
  lemma ConvertDefinedIff(category: string, fromUnit: string, toUnit: string, value: real)
    requires fromUnit != toUnit && CategoryOfKey(category).Some?
    ensures Convert(category, fromUnit, toUnit, value).Ok? <==>
              CategoryOfKey(category).value.SupportsUnit(fromUnit) &&
              CategoryOfKey(category).value.SupportsUnit(toUnit)
  {
    var c := CategoryOfKey(category).value;
    CanonicalDefinedIff(c, fromUnit, value);
    if c.SupportsUnit(fromUnit) {
      CanonicalDefinedIff(c, toUnit, ToCanonical(c, fromUnit, value).value);
    }
  }

  /** A unit missing from the category's table fails, on the source side with
      the source's name and otherwise with the target's. */
  lemma ConvertUnknownUnit(c: Category, fromUnit: string, toUnit: string, value: real)
    requires fromUnit != toUnit
    requires !c.SupportsUnit(fromUnit) || !c.SupportsUnit(toUnit)
    ensures !c.SupportsUnit(fromUnit) ==>
              Convert(c.DisplayName(), fromUnit, toUnit, value) == Err("Unknown " + UnitNoun(c) + " unit: " + fromUnit)
    ensures c.SupportsUnit(fromUnit) ==>
              Convert(c.DisplayName(), fromUnit, toUnit, value) == Err("Unknown " + UnitNoun(c) + " unit: " + toUnit)
  {
    assert CategoryOfKey(c.DisplayName()) == Some(c);
    CanonicalDefinedIff(c, fromUnit, value);
    if c.SupportsUnit(fromUnit) {
      CanonicalDefinedIff(c, toUnit, ToCanonical(c, fromUnit, value).value);
    }
  }

  /** With units of a known category, the result is the canonical value mapped
      out to the target unit (for equal units too, by the round trip). */
  lemma ConvertViaCanonical(c: Category, fromUnit: string, toUnit: string, value: real)
    requires c.SupportsUnit(fromUnit) && c.SupportsUnit(toUnit)
    ensures ToCanonical(c, fromUnit, value).Ok?
    ensures Convert(c.DisplayName(), fromUnit, toUnit, value) ==
            FromCanonical(c, toUnit, ToCanonical(c, fromUnit, value).value)
  {
    assert CategoryOfKey(c.DisplayName()) == Some(c);
    CanonicalDefinedIff(c, fromUnit, value);
    if fromUnit == toUnit {
      CanonicalRoundTrip(c, fromUnit, value);
    }
  }

  /** Every exact display name with any two of its listed units converts
      without throwing. */
  lemma ConvertTotalOnRegistry(c: Category, fromUnit: string, toUnit: string, value: real)
    requires c.SupportsUnit(fromUnit) && c.SupportsUnit(toUnit)
    ensures Convert(c.DisplayName(), fromUnit, toUnit, value).Ok?
  {
    assert CategoryOfKey(c.DisplayName()) == Some(c);
    if fromUnit != toUnit {
      ConvertDefinedIff(c.DisplayName(), fromUnit, toUnit, value);
    }
  }

  /** Converting back undoes a successful conversion exactly. */
  lemma ConvertRoundTrip(category: string, a: string, b: string, value: real)
    requires Convert(category, a, b, value).Ok?
    ensures Convert(category, b, a, Convert(category, a, b, value).value) == Ok(value)
  {
    if a != b {
      var c := CategoryOfKey(category).value;
      ConvertDefinedIff(category, a, b, value);
      var base := ToCanonical(c, a, value).value;
      var out := FromCanonical(c, b, base).value;
      CanonicalRoundTrip(c, b, base);
      CanonicalRoundTrip(c, a, value);
      assert Convert(category, b, a, out) == FromCanonical(c, a, ToCanonical(c, b, out).value);
    }
  }

  /** Converting a to b and then b to d is converting a to d. */
  lemma ConvertComposes(category: string, a: string, b: string, d: string, value: real)
    requires Convert(category, a, b, value).Ok?
    requires Convert(category, b, d, Convert(category, a, b, value).value).Ok?
    ensures Convert(category, a, d, value) == Convert(category, b, d, Convert(category, a, b, value).value)
  {
    var mid := Convert(category, a, b, value).value;
    if a == b {
    } else if b == d {
    } else {
      var c := CategoryOfKey(category).value;
      ConvertDefinedIff(category, a, b, value);
      ConvertDefinedIff(category, b, d, mid);
      var base := ToCanonical(c, a, value).value;
      CanonicalRoundTrip(c, b, base);
      assert ToCanonical(c, b, mid) == Ok(base);
      if a == d {
        CanonicalRoundTrip(c, a, value);
      }
    }
  }

  /** Between two units of a scaling category, `convert` multiplies by the
      source unit's factor and divides by the target unit's. */
  lemma ConvertScales(c: Category, a: string, b: string, value: real)
    requires c != Temperature
    requires c.SupportsUnit(a) && c.SupportsUnit(b)
    ensures Factor(c, a).Some? && Factor(c, b).Some? && Factor(c, b).value > 0.0
    ensures Convert(c.DisplayName(), a, b, value) ==
            ScaleDown(Factor(c, b), ScaleUp(Factor(c, a), value, UnknownUnit(c, a)).value, UnknownUnit(c, b))
  {
    FactorKnown(c, a);
    FactorKnown(c, b);
    FactorPositive(c, b);
    ConvertViaCanonical(c, a, b, value);
  }

  /** How many target units one source unit is, for two units of a scaling
      category. */
  function Ratio(c: Category, a: string, b: string): real
    requires c != Temperature && c.SupportsUnit(a) && c.SupportsUnit(b)
  {
    FactorKnown(c, a);
    FactorKnown(c, b);
    FactorPositive(c, b);
    Over(Factor(c, a).value, Factor(c, b).value)
  }

  /** Scaling categories are linear: between two of its units, `convert`
      multiplies the input by a ratio that does not depend on the input. */
  lemma ConvertByRatio(c: Category, a: string, b: string, value: real)
    requires c != Temperature
    requires c.SupportsUnit(a) && c.SupportsUnit(b)
    ensures Convert(c.DisplayName(), a, b, value).Ok?
    ensures Convert(c.DisplayName(), a, b, value).value == Times(value, Ratio(c, a, b))
  {
    ConvertScales(c, a, b, value);
    TimesOverAssociate(value, Factor(c, a).value, Factor(c, b).value);
  }

  lemma TimesOverAssociate(value: real, f: real, g: real)
    requires g != 0.0
    ensures Over(Times(value, f), g) == Times(value, Over(f, g))
  {
  }

  /** Zero converts to zero between any two units of a scaling category. */
  lemma ConvertZero(c: Category, a: string, b: string)
    requires c != Temperature
    requires c.SupportsUnit(a) && c.SupportsUnit(b)
    ensures Convert(c.DisplayName(), a, b, 0.0) == Ok(0.0)
  {
    ConvertScales(c, a, b, 0.0);
    FactorPositive(c, a);
    ScaleHomogeneous(Factor(c, a), 0.0, 0.0, UnknownUnit(c, a));
    ScaleHomogeneous(Factor(c, b), 0.0, 0.0, UnknownUnit(c, b));
  }

  lemma FactorKnown(c: Category, unit: string)
    requires c != Temperature && c.SupportsUnit(unit)
    ensures Factor(c, unit).Some?
  {
    FactorMatchesRegistry(c, unit);
  }

  lemma FactorPositive(c: Category, unit: string)
    requires c != Temperature
    ensures Factor(c, unit).Some? ==> Factor(c, unit).value > 0.0
  {
    FactorMatchesRegistry(c, unit);
  }

  /** The affine temperature maps at their textbook points. */
  lemma TemperatureSpotValues()
    ensures Convert("Temperature", "Celsius", "Fahrenheit", 0.0) == Ok(32.0)
    ensures Convert("Temperature", "Fahrenheit", "Celsius", 212.0) == Ok(100.0)
    ensures Convert("Temperature", "Celsius", "Kelvin", 0.0) == Ok(273.15)
    ensures Convert("Temperature", "Kelvin", "Fahrenheit", 0.0) == Ok(-459.67)
  {
  }

  /** Identity short-circuit and the pound factor. */
  lemma LinearSpotValues()
    ensures Convert("Length", "Meter", "Meter", 5.0) == Ok(5.0)
    ensures Convert("Weight", "Kilogram", "Pound", 1.0) == Ok(1.0 / 0.453592)
    ensures 2.20462 - 0.0001 < 1.0 / 0.453592 < 2.20462 + 0.0001
    ensures Convert("Length", "Mile", "Foot", 1.0) == Ok(5280.0)
  {
  }

  /** The registry's lookup ignores case but the conversion switch does not:
      "length" is a valid category name for the registry and still makes
      `convert` throw once the units differ. */
  lemma LowercaseNameDiverges(value: real)
    ensures IsValidUnitForCategory("length", "Meter")
    ensures Convert("length", "Meter", "Foot", value) == Err("Unknown category: length")
    ensures Convert("length", "Meter", "Meter", value) == Ok(value)
  {
    LowercaseLengthIsLength();
    LowercaseLengthUnknown(value);
  }

  lemma LowercaseLengthUnknown(value: real)
    ensures Convert("length", "Meter", "Foot", value) == Err("Unknown category: length")
  {
    assert CategoryOfKey("length") == None;
  }

  lemma LowercaseLengthIsLength()
    ensures IsValidUnitForCategory("length", "Meter")
  {
    assert LowerCase("Length") == "length";
    assert LowerCase("length") == "length";
    FromDisplayNameFindsCategory(Length, "length");
  }
}

=== FILE: conversion_request.dfy ===
/** `ConversionRequest`: an immutable, eagerly validated description of one
    conversion, and its builder. */
module ConversionRequest {
  import opened Base
  import opened JavaLang

  /** A request that passed validation. The timestamp is the clock reading
      taken when it was built. */
  datatype Request = Request(inputValue: real, fromUnit: string, toUnit: string, category: string, timestamp: int)
  {
    /** `isSelfConversion`: `fromUnit.equals(toUnit)`. */
    predicate IsSelfConversion() {
      fromUnit == toUnit
    }
  }

  const NotFiniteMessage := "Input value must be a finite number"
  const SourceUnitMessage := "Source unit cannot be null or empty"
  const TargetUnitMessage := "Target unit cannot be null or empty"
  const CategoryMessage := "Category cannot be null or empty"

  function NegativeMessage(category: string): string {
    "Negative values are not allowed for " + category + " conversions"
  }

  /** Negative input is accepted only for the exact, case-sensitive category
      name "Temperature". */
  predicate SignAllowed(inputValue: real, category: string) {
    inputValue >= 0.0 || category == "Temperature"
  }

  /** The conditions `validate` checks, all at once. */
  predicate Valid(inputValue: Double, fromUnit: Option<string>, toUnit: Option<string>, category: Option<string>) {
    && inputValue.Finite?
    && !IsBlank(fromUnit)
    && !IsBlank(toUnit)
    && !IsBlank(category)
    && SignAllowed(inputValue.v, category.value)
  }

  /** The checks of `validate` in the order they run, each as "failed?" with
      the message it throws. */
  function Checks(inputValue: Double, fromUnit: Option<string>, toUnit: Option<string>, category: Option<string>)
    : seq<(bool, string)>
  {
    [ (!inputValue.Finite?, NotFiniteMessage),
      (IsBlank(fromUnit), SourceUnitMessage),
      (IsBlank(toUnit), TargetUnitMessage),
      (IsBlank(category), CategoryMessage),
      (inputValue.Finite? && category.Some? && !SignAllowed(inputValue.v, category.value),
       NegativeMessage(if category.Some? then category.value else "null")) ]
  }

  /** The message of the first failed check, if any. */
  function FirstFailure(checks: seq<(bool, string)>): (r: Option<string>)
    ensures r.None? <==> forall i :: 0 <= i < |checks| ==> !checks[i].0
    ensures r.Some? ==> exists i :: 0 <= i < |checks| && checks[i] == (true, r.value) &&
                          forall j :: 0 <= j < i ==> !checks[j].0
  {
    if |checks| == 0 then None
    else if checks[0].0 then Some(checks[0].1)
    else
      var r := FirstFailure(checks[1..]);
      if r.Some? then
        var i :| 0 <= i < |checks[1..]| && checks[1..][i] == (true, r.value) &&
                 forall j :: 0 <= j < i ==> !checks[1..][j].0;
        assert checks[i + 1] == (true, r.value);
        r
      else r
  }

  /** The constructor `ConversionRequest(inputValue, fromUnit, toUnit,
      category)`: store the fields, read the clock, then `validate`, which
      throws `IllegalArgumentException` at the first failed check. */
  function NewRequest(inputValue: Double, fromUnit: Option<string>, toUnit: Option<string>,
                      category: Option<string>, now: int): (r: Result<Request>)
    ensures r.Ok? <==> Valid(inputValue, fromUnit, toUnit, category)
    ensures r.Ok? ==> r.value == Request(inputValue.v, fromUnit.value, toUnit.value, category.value, now)
  {
    if !inputValue.Finite? then Err(NotFiniteMessage)
    else if IsBlank(fromUnit) then Err(SourceUnitMessage)
    else if IsBlank(toUnit) then Err(TargetUnitMessage)
    else if IsBlank(category) then Err(CategoryMessage)
    else if inputValue.v < 0.0 && category.value != "Temperature" then Err(NegativeMessage(category.value))
    else Ok(Request(inputValue.v, fromUnit.value, toUnit.value, category.value, now))
  }

  // ---------------------------------------------------------------------------
  // Properties of validation

  /** The thrown message is the one of the first failed check, in the order
      finiteness, source unit, target unit, category, sign. */
  lemma FirstFailedCheckWins(inputValue: Double, fromUnit: Option<string>, toUnit: Option<string>,
                             category: Option<string>, now: int)
    ensures NewRequest(inputValue, fromUnit, toUnit, category, now).Err? <==>
            FirstFailure(Checks(inputValue, fromUnit, toUnit, category)).Some?
    ensures NewRequest(inputValue, fromUnit, toUnit, category, now).Err? ==>
            NewRequest(inputValue, fromUnit, toUnit, category, now).message ==
            FirstFailure(Checks(inputValue, fromUnit, toUnit, category)).value
  {
    var checks := Checks(inputValue, fromUnit, toUnit, category);
    FirstFailureStep(checks);
    FirstFailureStep(checks[1..]);
    FirstFailureStep(checks[2..]);
    FirstFailureStep(checks[3..]);
    FirstFailureStep(checks[4..]);
    assert checks[1..][1..] == checks[2..];
    assert checks[2..][1..] == checks[3..];
    assert checks[3..][1..] == checks[4..];
    assert checks[4..][1..] == [];
  }

  lemma FirstFailureStep(checks: seq<(bool, string)>)
    requires |checks| > 0
    ensures FirstFailure(checks) == if checks[0].0 then Some(checks[0].1) else FirstFailure(checks[1..])
  {
  }

  /** With every field present and non-blank, a negative input is accepted
      exactly for the category "Temperature", compared case-sensitively (so
      "temperature" rejects it), and zero is always accepted. */
  lemma NegativeOnlyForTemperature(inputValue: real, fromUnit: string, toUnit: string, category: string, now: int)
    requires Trim(fromUnit) != [] && Trim(toUnit) != [] && Trim(category) != []
    ensures inputValue < 0.0 ==>
              (NewRequest(Finite(inputValue), Some(fromUnit), Some(toUnit), Some(category), now).Ok? <==>
               category == "Temperature")
    ensures inputValue < 0.0 && category != "Temperature" ==>
              NewRequest(Finite(inputValue), Some(fromUnit), Some(toUnit), Some(category), now) ==
              Err("Negative values are not allowed for " + category + " conversions")
    ensures inputValue >= 0.0 ==>
              NewRequest(Finite(inputValue), Some(fromUnit), Some(toUnit), Some(category), now).Ok?
  {
  }

  // ---------------------------------------------------------------------------
  // equals

  /** `equals`: value, units and category; the timestamp is ignored. (Every
      field of a validated request is non-null and its value finite, so
      `Double.compare == 0` and `Objects.equals` reduce to equality.) */
  predicate Equals(a: Request, b: Request) {
    a.inputValue == b.inputValue && a.fromUnit == b.fromUnit && a.toUnit == b.toUnit && a.category == b.category
  }

  /** Two requests are `equals` exactly when they agree once their timestamps
      are made the same. */
  lemma EqualsIgnoresTimestamp(a: Request, b: Request)
    ensures Equals(a, b) <==> a.(timestamp := b.timestamp) == b
  {
  }

  /** Building twice from the same arguments at different times gives requests
      that are `equals` but not identical. */
  lemma RebuiltRequestsAreEqual(inputValue: Double, fromUnit: Option<string>, toUnit: Option<string>,
                                category: Option<string>, t1: int, t2: int)
    requires Valid(inputValue, fromUnit, toUnit, category)
    ensures Equals(NewRequest(inputValue, fromUnit, toUnit, category, t1).value,
                   NewRequest(inputValue, fromUnit, toUnit, category, t2).value)
    ensures t1 != t2 ==> NewRequest(inputValue, fromUnit, toUnit, category, t1) !=
                         NewRequest(inputValue, fromUnit, toUnit, category, t2)
  {
  }

  // ---------------------------------------------------------------------------
  // RequestBuilder

  /** `ConversionRequest.Builder`: unset fields keep Java's defaults, 0.0 and
      `null`. */
  datatype RequestBuilder = RequestBuilder(inputValue: Double, fromUnit: Option<string>, toUnit: Option<string>, category: Option<string>)
  {
    function SetInputValue(v: Double): RequestBuilder { this.(inputValue := v) }
    function SetFromUnit(u: Option<string>): RequestBuilder { this.(fromUnit := u) }
    function SetToUnit(u: Option<string>): RequestBuilder { this.(toUnit := u) }
    function SetCategory(c: Option<string>): RequestBuilder { this.(category := c) }

    /** `build`: the validating constructor, at clock reading `now`. */
    function Build(now: int): (r: Result<Request>)
      ensures r.Ok? <==> Valid(inputValue, fromUnit, toUnit, category)
      ensures r.Ok? ==> r.value.timestamp == now && r.value.inputValue == inputValue.v &&
                        r.value.fromUnit == fromUnit.value && r.value.toUnit == toUnit.value &&
                        r.value.category == category.value
    {
      NewRequest(inputValue, fromUnit, toUnit, category, now)
    }
  }

  const DefaultRequestBuilder := RequestBuilder(Finite(0.0), None, None, None)

  /** A builder that was never given its units fails on the source unit, and
      one given only a source unit fails on the target unit. */
  lemma DefaultRequestBuilderFails(unit: string, now: int)
    requires Trim(unit) != []
    ensures DefaultRequestBuilder.Build(now) == Err(SourceUnitMessage)
    ensures DefaultRequestBuilder.SetFromUnit(Some(unit)).Build(now) == Err(TargetUnitMessage)
  {
  }

  /** A fully set builder yields the request the constructor yields. */
  lemma BuilderMatchesConstructor(v: Double, f: Option<string>, t: Option<string>, c: Option<string>, now: int)
    ensures DefaultRequestBuilder.SetInputValue(v).SetFromUnit(f).SetToUnit(t).SetCategory(c).Build(now) ==
            NewRequest(v, f, t, c, now)
  {
  }
}

=== FILE: conversion_result.dfy ===
/** `ConversionResult`: the outcome of one conversion, either a validated
    success or an error carrying a message, and its builder. */
module ConversionResult {
  import opened Base
  import opened JavaLang
  import opened ConversionRequest

  /** The fields of a `ConversionResult`; `request` and `errorMessage` may be
      `null`. */
  datatype Outcome = Outcome(request: Option<Request>, resultValue: real, calculationTime: int,
                             success: bool, errorMessage: Option<string>)

  const NaNMessage := "Result cannot be NaN"
  const InfiniteMessage := "Result cannot be infinite"

  /** The success constructor `ConversionResult(request, resultValue,
      calculationTime)`, with `validateResult`: NaN is rejected first, then
      either infinity. The request and the time are not checked. */
  function NewSuccess(request: Option<Request>, resultValue: Double, calculationTime: int): (r: Result<Outcome>)
    ensures r.Ok? <==> resultValue.Finite?
    ensures resultValue.NaN? ==> r == Err(NaNMessage)
    ensures resultValue.Infinity? ==> r == Err(InfiniteMessage)
    ensures r.Ok? ==> r.value.success && r.value.errorMessage.None? && r.value.request == request &&
                      r.value.resultValue == resultValue.v && r.value.calculationTime == calculationTime
  {
    match resultValue
    case NaN => Err(NaNMessage)
    case Infinity(_) => Err(InfiniteMessage)
    case Finite(v) => Ok(Outcome(request, v, calculationTime, true, None))
  }

  /** The error constructor `ConversionResult(request, errorMessage)`: nothing
      is validated, and the value and time are zero. */
  function NewError(request: Option<Request>, errorMessage: Option<string>): (r: Outcome)
    ensures !r.success && r.resultValue == 0.0 && r.calculationTime == 0
    ensures r.request == request && r.errorMessage == errorMessage
  {
    Outcome(request, 0.0, 0, false, errorMessage)
  }

  /** The static factory `error(request, errorMessage)`. */
  function Error(request: Option<Request>, errorMessage: Option<string>): Outcome {
    NewError(request, errorMessage)
  }

  /** `isSelfConversion`: `success && request.isSelfConversion()`. The `&&`
      short-circuits, so a failed result answers false even without a
      request; a successful one without a request throws. */
  function IsSelfConversion(o: Outcome): (r: Result<bool>)
    ensures r.Err? <==> o.success && o.request.None?
    ensures r.Ok? ==> (r.value <==> o.success && o.request.value.IsSelfConversion())
  {
    if !o.success then Ok(false)
    else if o.request.None? then Err("NullPointerException")
    else Ok(o.request.value.IsSelfConversion())
  }

  /** `getEfficiency`: conversions per second, 0 for a failure or a zero time. */
  function Efficiency(o: Outcome): (r: real)
    ensures !o.success || o.calculationTime == 0 ==> r == 0.0
    ensures o.success && o.calculationTime != 0 ==> r * (o.calculationTime as real) == 1000.0
  {
    if !o.success || o.calculationTime == 0 then 0.0
    else 1000.0 / (o.calculationTime as real)
  }

  /** `getFormattedResult`. The success text comes from `DecimalFormat`, which
      is not modelled: `render` stands for it. */
  function FormattedResult(o: Outcome, render: real -> string): string {
    if !o.success then "Conversion failed" else render(o.resultValue)
  }

  /** `getSummary`. `String.format("%s", null)` prints "null". The success text
      comes from `String.format` and `DecimalFormat`: `successText` stands
      for it. */
  function Summary(o: Outcome, successText: string): string {
    if !o.success then "ERROR: " + (if o.errorMessage.Some? then o.errorMessage.value else "null")
    else successText
  }

  // ---------------------------------------------------------------------------
  // Properties of failed results

  /** A failed result, however it was made, reads as failed everywhere: not a
      self-conversion, efficiency 0, "Conversion failed", and "ERROR: " with
      its message. */
  lemma ErrorObservations(request: Option<Request>, message: string, render: real -> string, successText: string)
    ensures IsSelfConversion(Error(request, Some(message))) == Ok(false)
    ensures Efficiency(Error(request, Some(message))) == 0.0
    ensures FormattedResult(Error(request, Some(message)), render) == "Conversion failed"
    ensures Summary(Error(request, Some(message)), successText) == "ERROR: " + message
    ensures Summary(Error(request, None), successText) == "ERROR: null"
  {
  }

  /** `error(r, m)` is the two-argument constructor. */
  lemma ErrorIsErrorConstructor(request: Option<Request>, errorMessage: Option<string>)
    ensures Error(request, errorMessage) == NewError(request, errorMessage)
    ensures Error(request, errorMessage) != NewSuccess(request, Finite(0.0), 0).value
  {
  }

  /** A successful result that took time t > 0 has efficiency 1000/t, which
      is positive and shrinks as t grows. */
  lemma EfficiencyDecreasing(o: Outcome, p: Outcome)
    requires o.success && p.success
    requires 0 < o.calculationTime < p.calculationTime
    ensures 0.0 < Efficiency(p) < Efficiency(o)
  {
    ReciprocalDecreasing(o.calculationTime as real, p.calculationTime as real);
  }

  lemma ReciprocalDecreasing(t: real, u: real)
    requires 0.0 < t < u
    ensures 0.0 < 1000.0 / u < 1000.0 / t
  {
    var a, b := 1000.0 / t, 1000.0 / u;
    assert a * t == 1000.0 && b * u == 1000.0;
    assert b > 0.0;
    assert b * t < b * u;
  }

  // ---------------------------------------------------------------------------
  // ResultBuilder

  /** `ConversionResult.Builder`: the time starts at -1 and the value at 0. */
  datatype ResultBuilder = ResultBuilder(request: Option<Request>, resultValue: Double, calculationTime: int)
  {
    function SetRequest(r: Option<Request>): ResultBuilder { this.(request := r) }
    function SetResultValue(v: Double): ResultBuilder { this.(resultValue := v) }
    function SetCalculationTime(t: int): ResultBuilder { this.(calculationTime := t) }

    /** `build`: a negative time becomes 0, then the success constructor. */
    function Build(): (r: Result<Outcome>)
      ensures r.Ok? <==> resultValue.Finite?
      ensures r.Ok? ==> r.value.success && r.value.calculationTime >= 0
      ensures r.Ok? ==> r.value.calculationTime == (if calculationTime < 0 then 0 else calculationTime)
    {
      NewSuccess(request, resultValue, if calculationTime < 0 then 0 else calculationTime)
    }
  }

  const DefaultResultBuilder := ResultBuilder(None, Finite(0.0), -1)

  /** An untouched builder yields a success with value 0, time 0 and no
      request; its efficiency is therefore 0. */
  lemma DefaultResultBuilderBuilds()
    ensures DefaultResultBuilder.Build() == Ok(Outcome(None, 0.0, 0, true, None))
    ensures Efficiency(DefaultResultBuilder.Build().value) == 0.0
    ensures IsSelfConversion(DefaultResultBuilder.Build().value).Err?
  {
  }

  /** Setting a non-negative time keeps it; setting a negative one is the same
      as setting 0. */
  lemma BuilderClampsTime(b: ResultBuilder, t: int)
    requires b.resultValue.Finite?
    ensures t >= 0 ==> b.SetCalculationTime(t).Build().value.calculationTime == t
    ensures t < 0 ==> b.SetCalculationTime(t).Build() == b.SetCalculationTime(0).Build()
  {
  }
}

=== FILE: converter_utils.dfy ===
/** `ConverterUtils`: input guards, capitalisation, category descriptions and
    the branch and trimming policy of `formatResult`. */
module ConverterUtils {
  import opened Base
  import opened JavaLang
  import opened UnitCategory
  import ConversionRequest
  import StringUtils

  /** `isValidNumber`: blank text is rejected before parsing; otherwise the
      trimmed text must parse as a `double`. */
  function IsValidNumber(text: Option<string>, parse: Parser): (r: bool)
    ensures r ==> text.Some? && Trim(text.value) != [] && parse(Trim(text.value)).Some?
    ensures text.Some? && Trim(text.value) != [] && parse(Trim(text.value)).Some? ==> r
  {
    if IsBlank(text) then false
    else parse(Trim(text.value)).Some?
  }

  /** Text made only of characters up to U+0020 is never a valid number,
      whatever the parser would say about it. */
  lemma WhitespaceIsNotANumber(text: string, parse: Parser)
    requires forall i :: 0 <= i < |text| ==> IsTrimmable(text[i])
    ensures !IsValidNumber(Some(text), parse)
    ensures !IsValidNumber(None, parse)
  {
    TrimEmptyIff(text);
  }

  /** Padding with characters up to U+0020 on either side does not change
      the verdict. */
  lemma ValidNumberIgnoresPadding(before: string, text: string, after: string, parse: Parser)
    requires |text| > 0 && !IsTrimmable(text[0]) && !IsTrimmable(text[|text| - 1])
    requires forall i :: 0 <= i < |before| ==> IsTrimmable(before[i])
    requires forall i :: 0 <= i < |after| ==> IsTrimmable(after[i])
    ensures IsValidNumber(Some(before + text + after), parse) == parse(text).Some?
  {
    TrimStripsPadding(before, text, after);
  }

  /** `areUnitsDifferent`: `!fromUnit.equals(toUnit)`, which throws on a null
      source unit and is true for a null target unit. */
  function AreUnitsDifferent(fromUnit: Option<string>, toUnit: Option<string>): (r: Result<bool>)
    ensures r.Err? <==> fromUnit.None?
    ensures r.Ok? ==> (r.value <==> toUnit.None? || toUnit.value != fromUnit.value)
  {
    match fromUnit
    case None => Err("NullPointerException")
    case Some(f) => Ok(!(toUnit.Some? && toUnit.value == f))
  }

  /** The units of a request differ exactly when it is not a self-conversion. */
  lemma DifferentIffNotSelf(r: ConversionRequest.Request)
    ensures AreUnitsDifferent(Some(r.fromUnit), Some(r.toUnit)) == Ok(!r.IsSelfConversion())
  {
  }

  // ---------------------------------------------------------------------------
  // capitalize

  /** `capitalize`: null and "" come back unchanged; otherwise the first
      character is upper-cased and the rest lower-cased. */
  function Capitalize(str: Option<string>): (r: Option<string>)
    ensures r.None? <==> str.None?
    ensures str.Some? ==> |r.value| == |str.value|
    ensures str.Some? && |str.value| > 0 ==>
              r.value[0] == ToUpper(str.value[0]) &&
              forall i :: 1 <= i < |str.value| ==> r.value[i] == ToLower(str.value[i])
  {
    match str
    case None => None
    case Some(s) => if s == [] then str else Some(StringUtils.CapitalizeFirst(s))
  }

  /** Capitalising twice is capitalising once, and the result agrees with the
      input ignoring case. */
  lemma CapitalizeIdempotent(str: Option<string>)
    ensures Capitalize(Capitalize(str)) == Capitalize(str)
    ensures str.Some? ==> EqualsIgnoreCase(Capitalize(str).value, str.value)
  {
    if str.Some? && |str.value| > 0 {
      var once := Capitalize(str).value;
      var twice := Capitalize(Some(once)).value;
      assert twice[0] == ToUpper(ToUpper(str.value[0]));
      forall i | 1 <= i < |once| ensures twice[i] == once[i] {
        assert twice[i] == ToLower(ToLower(str.value[i]));
      }
      assert twice == once;
      forall i | 0 <= i < |once| ensures ToLower(once[i]) == ToLower(str.value[i]) {
        if i > 0 {
          assert ToLower(ToLower(str.value[i])) == ToLower(str.value[i]);
        }
      }
    }
  }

  // ---------------------------------------------------------------------------
  // getCategoryDescription

  /** `getCategoryDescription`: a case-sensitive switch with a default. */
  function CategoryDescription(category: string): (r: string)
    ensures r != []
  {
    match category
    case "Length" => "Distance Measurements"
    case "Weight" => "Mass Measurements"
    case "Temperature" => "Temperature Scales"
    case "Volume" => "Capacity Measurements"
    case "Area" => "Surface Area Measurements"
    case _ => "Unit Conversions"
  }

  /** For each category the description agrees with the enum's own
      description ignoring case, but not exactly: the utility capitalises
      the word "Measurements" or "Scales". */
  lemma CategoryDescriptionMatchesEnum(c: Category)
    ensures EqualsIgnoreCase(CategoryDescription(c.DisplayName()), c.Description())
    ensures CategoryDescription(c.DisplayName()) != c.Description()
  {
    match c
    case Length => DescribesLength();
    case Weight => DescribesWeight();
    case Temperature => DescribesTemperature();
    case Volume => DescribesVolume();
    case Area => DescribesArea();
  }

  lemma DescribesLength()
    ensures EqualsIgnoreCase(CategoryDescription(Length.DisplayName()), Length.Description())
    ensures CategoryDescription(Length.DisplayName()) != Length.Description()
  {
    assert CategoryDescription("Length") == "Distance Measurements";
    SameButOneCase("Distance ", 'M', 'm', "easurements");
  }

  lemma DescribesWeight()
    ensures EqualsIgnoreCase(CategoryDescription(Weight.DisplayName()), Weight.Description())
    ensures CategoryDescription(Weight.DisplayName()) != Weight.Description()
  {
    assert CategoryDescription("Weight") == "Mass Measurements";
    SameButOneCase("Mass ", 'M', 'm', "easurements");
  }

  lemma DescribesTemperature()
    ensures EqualsIgnoreCase(CategoryDescription(Temperature.DisplayName()), Temperature.Description())
    ensures CategoryDescription(Temperature.DisplayName()) != Temperature.Description()
  {
    assert CategoryDescription("Temperature") == "Temperature Scales";
    SameButOneCase("Temperature ", 'S', 's', "cales");
  }

  lemma DescribesVolume()
    ensures EqualsIgnoreCase(CategoryDescription(Volume.DisplayName()), Volume.Description())
    ensures CategoryDescription(Volume.DisplayName()) != Volume.Description()
  {
    assert CategoryDescription("Volume") == "Capacity Measurements";
    SameButOneCase("Capacity ", 'M', 'm', "easurements");
  }

  lemma DescribesArea()
    ensures EqualsIgnoreCase(CategoryDescription(Area.DisplayName()), Area.Description())
    ensures CategoryDescription(Area.DisplayName()) != Area.Description()
  {
    assert CategoryDescription("Area") == "Surface Area Measurements";
  }

  /** Two strings that differ in one letter, upper against lower case, are
      equal ignoring case and not equal. */
  lemma SameButOneCase(prefix: string, upper: char, lower: char, suffix: string)
    requires IsUpper(upper) && ToLower(upper) == lower
    ensures EqualsIgnoreCase(prefix + [upper] + suffix, prefix + [lower] + suffix)
    ensures prefix + [upper] + suffix != prefix + [lower] + suffix
  {
    var a, b := prefix + [upper] + suffix, prefix + [lower] + suffix;
    assert a[|prefix|] != b[|prefix|];
    forall i | 0 <= i < |a| ensures ToLower(a[i]) == ToLower(b[i]) {
      if i != |prefix| {
        assert a[i] == b[i];
      }
    }
    assert LowerCase(a) == LowerCase(b);
  }

  /** Any name that is not an exact display name, a lower-case one included,
      gets the generic description. */
  lemma CategoryDescriptionDefault(category: string)
    requires forall c: Category :: c.DisplayName() != category
    ensures CategoryDescription(category) == "Unit Conversions"
  {
    assert Length.DisplayName() != category && Weight.DisplayName() != category;
    assert Temperature.DisplayName() != category && Volume.DisplayName() != category;
    assert Area.DisplayName() != category;
  }

  // ---------------------------------------------------------------------------
  // formatResult: branch choice and trimming

  /** The branch `formatResult` takes: the literal "0", `%.6e`, or `%.Nf`
      with or without trimming of trailing zeros. */
  datatype FormatBranch = Zero | Scientific | Fixed(decimals: nat, trimmed: bool)

  function Abs(x: real): real {
    if x < 0.0 then -x else x
  }

  /** The branch chosen for `value`. NaN fails every comparison and so
      reaches the last branch; an infinity is above 10^6. */
  function FormatPolicy(value: Double): (b: FormatBranch)
    ensures b.Fixed? ==> b.decimals in {2, 4, 6, 8} && (b.trimmed <==> b.decimals != 2)
    ensures value.Infinity? ==> b == Scientific
    ensures value.NaN? ==> b == Fixed(2, false)
  {
    match value
    case NaN => Fixed(2, false)
    case Infinity(_) => Scientific
    case Finite(v) =>
      if v == 0.0 then Zero
      else if Abs(v) < 0.000001 || Abs(v) > 1000000.0 then Scientific
      else if Abs(v) < 0.1 then Fixed(8, true)
      else if Abs(v) < 1.0 then Fixed(6, true)
      else if Abs(v) < 100.0 then Fixed(4, true)
      else Fixed(2, false)
  }

  /** The decimals a finite magnitude in [10^-6, 10^6] gets, by decade band. */
  function DecimalsFor(magnitude: real): nat {
    if magnitude < 0.1 then 8 else if magnitude < 1.0 then 6 else if magnitude < 100.0 then 4 else 2
  }

  /** The branches partition the finite values: zero, outside [10^-6, 10^6],
      or a fixed branch whose decimals depend only on the magnitude. */
  lemma FormatPolicyPartition(v: real)
    ensures FormatPolicy(Finite(v)) == Zero <==> v == 0.0
    ensures FormatPolicy(Finite(v)) == Scientific <==> v != 0.0 && (Abs(v) < 0.000001 || Abs(v) > 1000000.0)
    ensures FormatPolicy(Finite(v)).Fixed? <==> v != 0.0 && 0.000001 <= Abs(v) <= 1000000.0
    ensures FormatPolicy(Finite(v)).Fixed? ==> FormatPolicy(Finite(v)).decimals == DecimalsFor(Abs(v))
  {
  }

  /** The sign does not matter, and larger magnitudes never get more decimals. */
  lemma FormatPolicyMonotone(v: real, w: real)
    requires FormatPolicy(Finite(v)).Fixed? && FormatPolicy(Finite(w)).Fixed?
    requires Abs(v) <= Abs(w)
    ensures FormatPolicy(Finite(w)).decimals <= FormatPolicy(Finite(v)).decimals
    ensures FormatPolicy(Finite(-v)) == FormatPolicy(Finite(v))
  {
  }

  /** `replaceAll("0*$", "")` then `replaceAll("\\.$", "")`: drop the run of
      trailing zeros, then one trailing dot. */
  function TrimFractionZeros(s: string): (r: string)
    ensures |r| <= |s| && r == s[..|r|]
    ensures forall i :: |r| <= i < |s| ==> s[i] == '0' || (s[i] == '.' && i == |r|)
    ensures |r| > 0 && (r[|r| - 1] == '0' || r[|r| - 1] == '.') ==> |r| < |s| && s[|r|] == '.'
  {
    var t := DropTrailing(s, '0');
    if |t| > 0 && t[|t| - 1] == '.' then t[..|t| - 1] else t
  }

  /** When the text has a decimal point, trimming stops at it: every digit
      before the point survives. */
  lemma TrimKeepsIntegerPart(s: string, point: nat)
    requires point < |s| && s[point] == '.'
    ensures |TrimFractionZeros(s)| >= point
    ensures TrimFractionZeros(s)[..point] == s[..point]
  {
  }

  /** `n` zero digits. */
  function Zeros(n: nat): (z: string)
    ensures |z| == n && forall i :: 0 <= i < n ==> z[i] == '0'
  {
    seq(n, _ => '0')
  }

  /** An all-zero fraction goes together with its point, and the integer part
      stays whole even when it ends in zero: "10.0000" becomes "10". */
  lemma ZeroFractionRemoved(integerPart: string, n: nat)
    ensures TrimFractionZeros(integerPart + "." + Zeros(n)) == integerPart
  {
    var s := integerPart + "." + Zeros(n);
    var t := DropTrailing(s, '0');
    assert s[|integerPart|] == '.';
    assert forall i :: |integerPart| < i < |s| ==> s[i] == '0';
    assert |t| == |integerPart| + 1;
    assert t == integerPart + ".";
  }

  /** A fraction that ends in a non-zero digit is kept as printed. */
  lemma NonZeroLastDigitKept(s: string)
    requires |s| > 0 && s[|s| - 1] != '0' && s[|s| - 1] != '.'
    ensures TrimFractionZeros(s) == s
  {
  }

  /** `formatResult`, given what `String.format` prints for the chosen
      branch: "0" for zero, the print unchanged for `%.6e` and `%.2f`, and
      trimmed for `%.8f`, `%.6f` and `%.4f`. */
  function FormatResult(value: Double, printed: string): (r: string)
    ensures FormatPolicy(value) == Zero ==> r == "0"
    ensures FormatPolicy(value) != Zero ==> |r| <= |printed| && r == printed[..|r|]
    ensures FormatPolicy(value) == Scientific || FormatPolicy(value) == Fixed(2, false) ==> r == printed
  {
    match FormatPolicy(value)
    case Zero => "0"
    case Scientific => printed
    case Fixed(_, trimmed) => if trimmed then TrimFractionZeros(printed) else printed
  }
}

=== FILE: currency_converter.dfy ===
/** `CurrencyConverter`: a rate cache with one global timestamp and a
    30-minute lifetime, a primary and a fallback rate source, the
    substring-search rate extractor, and the symbol and name tables. The
    network and the clock are parameters. */
module CurrencyConverter {
  import opened Base
  import opened JavaLang

  const ApiBaseUrl := "https://api.exchangerate-api.com/v4/latest/"
  const FallbackApiUrl := "https://api.frankfurter.app/latest?from="

  /** 30 minutes, in milliseconds. */
  const CacheDuration: int := 30 * 60 * 1000

  const UnavailableMessage := "Unable to fetch exchange rates. Please check your internet connection."

  /** The static cache: rates by "FROM_TO" key and the time of the last
      successful fetch, shared by every pair. */
  datatype RateCache = RateCache(rates: map<string, real>, timestamp: int)

  /** The class-load state, and the state `clearCache` restores. */
  const InitialCache := RateCache(map[], 0)

  /** `clearCache`. */
  function ClearCache(cache: RateCache): (r: RateCache)
    ensures r.rates == map[] && r.timestamp == 0
  {
    RateCache(map[], 0)
  }

  /** `isCacheValid` at clock reading `now`. */
  predicate IsCacheValid(cache: RateCache, now: int) {
    now - cache.timestamp < CacheDuration
  }

  function CacheKey(fromCurrency: string, toCurrency: string): string {
    fromCurrency + "_" + toCurrency
  }

  /** The answer to a GET of a URL: the body of a 200 response, or `None`
      for any other status or an I/O failure. */
  type Fetcher = string -> Option<string>

  // ---------------------------------------------------------------------------
  // URL choice and response parsing

  /** The URL `fetchExchangeRate` requests: the frankfurter source also takes
      the target currency as a query parameter. */
  function RequestUrl(apiUrl: string, fromCurrency: string, toCurrency: string): string {
    if Contains(apiUrl, "frankfurter") then apiUrl + fromCurrency + "&to=" + toCurrency
    else apiUrl + fromCurrency
  }

  /** The fallback URL is the one that names the frankfurter host. */
  lemma FallbackNamesFrankfurter()
    ensures Contains(FallbackApiUrl, "frankfurter")
  {
    var host, rest := "https://api.", ".app/latest?from=";
    assert |FallbackApiUrl| == |host + "frankfurter" + rest|;
    forall i | 0 <= i < |FallbackApiUrl|
      ensures FallbackApiUrl[i] == (host + "frankfurter" + rest)[i]
    {
    }
    assert FallbackApiUrl == host + "frankfurter" + rest;
    ContainsInfix(host, "frankfurter", rest);
  }

  /** The primary source is asked for the base currency only; the fallback
      for the pair. */
  lemma UrlChoice(fromCurrency: string, toCurrency: string)
    ensures RequestUrl(ApiBaseUrl, fromCurrency, toCurrency) == ApiBaseUrl + fromCurrency
    ensures RequestUrl(FallbackApiUrl, fromCurrency, toCurrency) == FallbackApiUrl + fromCurrency + "&to=" + toCurrency
  {
    NotContainsWithoutFirstChar(ApiBaseUrl, "frankfurter");
    FallbackNamesFrankfurter();
  }

  /** `parseExchangeRate`; its two branches are identical, so the URL plays
      no part. Find `"rates"`, then the quoted target code after it, then
      the next ':'. The value runs from there to the end `ValueEnd` picks.
      The trimmed slice is parsed; any failure (a missing marker, an
      invalid slice, an unparsable number) gives 0. */
  function ParseExchangeRate(json: string, toCurrency: string, parse: Parser): (rate: real)
    ensures IndexOf(json, "\"rates\"", 0) == -1 ==> rate == 0.0
    ensures var ratesIndex := IndexOf(json, "\"rates\"", 0);
            ratesIndex != -1 && IndexOf(json, "\"" + toCurrency + "\"", ratesIndex) == -1 ==> rate == 0.0
  {
    var ratesIndex := IndexOf(json, "\"rates\"", 0);
    if ratesIndex == -1 then 0.0
    else
      var currencyIndex := IndexOf(json, "\"" + toCurrency + "\"", ratesIndex);
      if currencyIndex == -1 then 0.0
      else
        RateAfter(json, IndexOf(json, ":", currencyIndex), parse)
  }

  /** The rate read after the colon at `colonIndex`: the trimmed slice up to
      `ValueEnd`, parsed; an invalid slice or an unparsable number gives 0. */
  function RateAfter(json: string, colonIndex: int, parse: Parser): real {
    match Substring(json, colonIndex + 1, ValueEnd(json, colonIndex))
    case Err(_) => 0.0
    case Ok(slice) => ParsedOrZero(parse(Trim(slice)))
  }

  /** Where the value after a colon ends: the next ',' if it comes before the
      next '}', otherwise that '}' (or -1 when there is none). */
  function ValueEnd(json: string, colonIndex: int): int {
    var commaIndex := IndexOf(json, ",", colonIndex);
    var braceIndex := IndexOf(json, "}", colonIndex);
    if commaIndex != -1 && commaIndex < braceIndex then commaIndex else braceIndex
  }

  function ParsedOrZero(v: Option<real>): real {
    if v.Some? then v.value else 0.0
  }

  /** A currency code: one or more upper-case ASCII letters. */
  predicate IsCode(code: string) {
    |code| > 0 && forall i :: 0 <= i < |code| ==> IsUpper(code[i])
  }

  /** The quoted code and its colon, as they appear in the rates object. */
  function Entry(toCurrency: string): string {
    "\"" + toCurrency + "\":"
  }

  /** The colon is the one closing the entry. */
  lemma FindsColon(json: string, toCurrency: string, c: int)
    requires IsCode(toCurrency)
    requires 0 <= c && c + |Entry(toCurrency)| <= |json|
    requires json[c..c + |Entry(toCurrency)|] == Entry(toCurrency)
    ensures IndexOf(json, ":", c) == c + |Entry(toCurrency)| - 1
    ensures json[c + |Entry(toCurrency)| - 1] == ':'
  {
    var k := c + |Entry(toCurrency)| - 1;
    forall j | c <= j <= k
      ensures json[j] == Entry(toCurrency)[j - c]
    {
    }
    MatchesAtChar(json, ':', k);
    IndexOfByFirstChar(json, ":", c, k);
  }

  /** The layout of a value and its tail after the colon at `k`. */
  lemma ValueLayout(json: string, k: int, value: string, tail: string)
    requires forall i :: 0 <= i < |value| ==> value[i] != ',' && value[i] != '}'
    requires |tail| > 0
    requires 0 <= k < |json| && json[k] == ':' && json[k + 1..] == value + tail
    ensures forall j :: k <= j < k + 1 + |value| ==> json[j] != ',' && json[j] != '}'
    ensures forall j :: 0 <= j < |tail| ==> json[k + 1 + |value| + j] == tail[j]
    ensures json[k + 1..k + 1 + |value|] == value
  {
    assert json[k + 1..k + 1 + |value|] == (value + tail)[..|value|];
    forall j | k < j < k + 1 + |value|
      ensures json[j] == value[j - k - 1]
    {
      assert json[j] == (value + tail)[j - k - 1];
    }
    forall j | 0 <= j < |tail|
      ensures json[k + 1 + |value| + j] == tail[j]
    {
      assert json[k + 1 + |value| + j] == (value + tail)[|value| + j];
    }
  }

  /** A value free of ',' and '}', followed by a tail that starts with one of
      them and holds a '}', ends where the tail begins. */
  lemma FindsValueEnd(json: string, k: int, value: string, tail: string)
    requires forall i :: 0 <= i < |value| ==> value[i] != ',' && value[i] != '}'
    requires |tail| > 0 && (tail[0] == ',' || tail[0] == '}') && '}' in tail
    requires 0 <= k < |json| && json[k] == ':' && json[k + 1..] == value + tail
    ensures ValueEnd(json, k) == k + 1 + |value|
    ensures json[k + 1..ValueEnd(json, k)] == value
  {
    ValueLayout(json, k, value, tail);
    var e := k + 1 + |value|;
    assert json[e + 0] == tail[0];
    MatchesAtChar(json, tail[0], e);
    if tail[0] == ',' {
      IndexOfByFirstChar(json, ",", k, e);
      var b :| 0 <= b < |tail| && tail[b] == '}';
      assert json[e + b] == '}';
      MatchesAtChar(json, '}', e + b);
      MatchesAtChar(json, '}', e);
      var brace := IndexOf(json, "}", k);
      assert brace != -1;
    } else {
      IndexOfByFirstChar(json, "}", k, e);
    }
  }

  /** A value free of ',' and '}' with nothing after it but one ',' has no
      end: `ValueEnd` is -1. */
  lemma MissesValueEnd(json: string, k: int, value: string)
    requires forall i :: 0 <= i < |value| ==> value[i] != ',' && value[i] != '}'
    requires 0 <= k < |json| && json[k] == ':' && json[k + 1..] == value + ","
    ensures ValueEnd(json, k) == -1
  {
    forall j | k <= j
      ensures !MatchesAt(json, "}", j)
    {
      MatchesAtChar(json, '}', j);
      if k < j < |json| {
        assert json[j] == (value + ",")[j - k - 1];
      }
    }
  }

  /** Once the three markers and the end are found, the rate is the parse of
      the trimmed slice between the colon and the end. */
  lemma ParseFound(json: string, toCurrency: string, parse: Parser, h: int, c: int, k: int, e: int)
    requires 0 <= h && IndexOf(json, "\"rates\"", 0) == h
    requires 0 <= c && IndexOf(json, "\"" + toCurrency + "\"", h) == c
    requires IndexOf(json, ":", c) == k && ValueEnd(json, k) == e
    requires 0 <= k + 1 <= e <= |json|
    ensures ParseExchangeRate(json, toCurrency, parse) == ParsedOrZero(parse(Trim(json[k + 1..e])))
  {
    assert ParseExchangeRate(json, toCurrency, parse) == RateAfter(json, k, parse);
  }

  /** A reply is read correctly wherever its parts sit: the first `"rates"`
      at `h`, the first quoted target code after it at `c` (other fields and
      codes may come before either), then the colon, and a value free of ','
      and '}' followed by a tail that starts with one of them and holds a
      '}'. The rate is the parse of the trimmed value. */
  lemma ParseReadsRate(json: string, toCurrency: string, h: int, c: int, value: string, tail: string,
                       parse: Parser)
    requires IsCode(toCurrency)
    requires MatchesAt(json, "\"rates\"", h) && forall j :: 0 <= j < h ==> !MatchesAt(json, "\"rates\"", j)
    requires h <= c && c + |Entry(toCurrency)| <= |json| && json[c..c + |Entry(toCurrency)|] == Entry(toCurrency)
    requires forall j :: h <= j < c ==> !MatchesAt(json, "\"" + toCurrency + "\"", j)
    requires forall i :: 0 <= i < |value| ==> value[i] != ',' && value[i] != '}'
    requires |tail| > 0 && (tail[0] == ',' || tail[0] == '}') && '}' in tail
    requires json[c + |Entry(toCurrency)|..] == value + tail
    ensures ParseExchangeRate(json, toCurrency, parse) == ParsedOrZero(parse(Trim(value)))
  {
    var key := "\"" + toCurrency + "\"";
    var k := c + |Entry(toCurrency)| - 1;
    IndexOfAt(json, "\"rates\"", 0, h);
    assert json[c..c + |key|] == json[c..c + |Entry(toCurrency)|][..|key|];
    IndexOfAt(json, key, h, c);
    FindsColon(json, toCurrency, c);
    FindsValueEnd(json, k, value, tail);
    ParseFound(json, toCurrency, parse, h, c, k, k + 1 + |value|);
  }

  /** Without a '}' after the value, the comma is ignored and the rate is
      lost: a reply cut off after `"EUR":0.92,` gives 0, wherever the
      markers sit. */
  lemma ParseNeedsClosingBrace(json: string, toCurrency: string, h: int, c: int, value: string, parse: Parser)
    requires IsCode(toCurrency)
    requires MatchesAt(json, "\"rates\"", h) && forall j :: 0 <= j < h ==> !MatchesAt(json, "\"rates\"", j)
    requires h <= c && c + |Entry(toCurrency)| <= |json| && json[c..c + |Entry(toCurrency)|] == Entry(toCurrency)
    requires forall j :: h <= j < c ==> !MatchesAt(json, "\"" + toCurrency + "\"", j)
    requires forall i :: 0 <= i < |value| ==> value[i] != ',' && value[i] != '}'
    requires json[c + |Entry(toCurrency)|..] == value + ","
    ensures ParseExchangeRate(json, toCurrency, parse) == 0.0
  {
    var key := "\"" + toCurrency + "\"";
    var k := c + |Entry(toCurrency)| - 1;
    IndexOfAt(json, "\"rates\"", 0, h);
    assert json[c..c + |key|] == json[c..c + |Entry(toCurrency)|][..|key|];
    IndexOfAt(json, key, h, c);
    FindsColon(json, toCurrency, c);
    MissesValueEnd(json, k, value);
    assert ParseExchangeRate(json, toCurrency, parse) == RateAfter(json, k, parse);
  }

  /** `fetchExchangeRate`: request the URL for this source and parse the
      body; anything but a 200 answer gives 0. */
  function FetchExchangeRate(fromCurrency: string, toCurrency: string, apiUrl: string,
                             fetch: Fetcher, parse: Parser): (rate: real)
    ensures fetch(RequestUrl(apiUrl, fromCurrency, toCurrency)).None? ==> rate == 0.0
  {
    match fetch(RequestUrl(apiUrl, fromCurrency, toCurrency))
    case None => 0.0
    case Some(body) => ParseExchangeRate(body, toCurrency, parse)
  }

  // ---------------------------------------------------------------------------
  // convertCurrency

  /** What `convertCurrency` returns or throws, and the cache afterwards. */
  datatype Conversion = Conversion(amount: Result<real>, cache: RateCache)

  /** Every stored rate is positive. */
  predicate RatesPositive(cache: RateCache) {
    forall key :: key in cache.rates ==> cache.rates[key] > 0.0
  }

  /** `convertCurrency`. `now` is the clock reading of the validity check and
      `later` the one stored after a successful fetch. */
  function ConvertCurrency(cache: RateCache, fromCurrency: string, toCurrency: string, amount: real,
                           now: int, later: int, fetch: Fetcher, parse: Parser): (c: Conversion)
    ensures c.amount.Err? ==> c.amount.message == UnavailableMessage && c.cache == cache
    ensures c.cache == cache || (c.cache.timestamp == later &&
                                 c.cache.rates.Keys == cache.rates.Keys + {CacheKey(fromCurrency, toCurrency)})
    ensures RatesPositive(cache) ==> RatesPositive(c.cache)
  {
    if fromCurrency == toCurrency then Conversion(Ok(amount), cache)
    else
      var key := CacheKey(fromCurrency, toCurrency);
      if IsCacheValid(cache, now) && key in cache.rates then
        Conversion(Ok(Times(amount, cache.rates[key])), cache)
      else
        var rate := SourcedRate(fromCurrency, toCurrency, fetch, parse);
        if rate <= 0.0 then Conversion(Err(UnavailableMessage), cache)
        else Conversion(Ok(Times(amount, rate)), RateCache(cache.rates[key := rate], later))
  }

  /** The rate a miss fetches: the primary source's, unless that is not
      positive, in which case the fallback's. */
  function SourcedRate(fromCurrency: string, toCurrency: string, fetch: Fetcher, parse: Parser): real {
    var primary := FetchExchangeRate(fromCurrency, toCurrency, ApiBaseUrl, fetch, parse);
    if primary <= 0.0 then FetchExchangeRate(fromCurrency, toCurrency, FallbackApiUrl, fetch, parse)
    else primary
  }

  /** A hit: the cache is younger than 30 minutes and holds the pair. */
  predicate IsHit(cache: RateCache, fromCurrency: string, toCurrency: string, now: int) {
    IsCacheValid(cache, now) && CacheKey(fromCurrency, toCurrency) in cache.rates
  }

  /** Converting a currency to itself returns the amount, leaves the cache
      alone and asks no source. */
  lemma SameCurrency(cache: RateCache, code: string, amount: real, now: int, later: int,
                     fetch: Fetcher, other: Fetcher, parse: Parser)
    ensures ConvertCurrency(cache, code, code, amount, now, later, fetch, parse) == Conversion(Ok(amount), cache)
    ensures ConvertCurrency(cache, code, code, amount, now, later, fetch, parse) ==
            ConvertCurrency(cache, code, code, amount, now, later, other, parse)
  {
  }

  /** A hit multiplies by the cached rate, leaves the cache alone and asks no
      source. */
  lemma CacheHit(cache: RateCache, fromCurrency: string, toCurrency: string, amount: real, now: int, later: int,
                 fetch: Fetcher, other: Fetcher, parse: Parser)
    requires fromCurrency != toCurrency && IsHit(cache, fromCurrency, toCurrency, now)
    ensures ConvertCurrency(cache, fromCurrency, toCurrency, amount, now, later, fetch, parse) ==
            Conversion(Ok(Times(amount, cache.rates[CacheKey(fromCurrency, toCurrency)])), cache)
    ensures ConvertCurrency(cache, fromCurrency, toCurrency, amount, now, later, fetch, parse) ==
            ConvertCurrency(cache, fromCurrency, toCurrency, amount, now, later, other, parse)
  {
  }

  /** On a miss with a positive primary rate, the fallback source is never
      consulted: any two sources that agree on the primary URL give the same
      outcome, which stores that rate at `later`. */
  lemma PrimaryFirst(cache: RateCache, fromCurrency: string, toCurrency: string, amount: real, now: int, later: int,
                     fetch: Fetcher, other: Fetcher, parse: Parser)
    requires fromCurrency != toCurrency && !IsHit(cache, fromCurrency, toCurrency, now)
    requires fetch(RequestUrl(ApiBaseUrl, fromCurrency, toCurrency)) == other(RequestUrl(ApiBaseUrl, fromCurrency, toCurrency))
    requires FetchExchangeRate(fromCurrency, toCurrency, ApiBaseUrl, fetch, parse) > 0.0
    ensures ConvertCurrency(cache, fromCurrency, toCurrency, amount, now, later, fetch, parse) ==
            ConvertCurrency(cache, fromCurrency, toCurrency, amount, now, later, other, parse)
    ensures var rate := FetchExchangeRate(fromCurrency, toCurrency, ApiBaseUrl, fetch, parse);
            ConvertCurrency(cache, fromCurrency, toCurrency, amount, now, later, fetch, parse) ==
            Conversion(Ok(Times(amount, rate)),
                       RateCache(cache.rates[CacheKey(fromCurrency, toCurrency) := rate], later))
  {
  }

  /** On a miss whose primary rate is not positive, the fallback decides: a
      positive fallback rate is stored, otherwise the call fails and the
      cache, timestamp included, is unchanged. */
  lemma FallbackDecides(cache: RateCache, fromCurrency: string, toCurrency: string, amount: real, now: int, later: int,
                        fetch: Fetcher, parse: Parser)
    requires fromCurrency != toCurrency && !IsHit(cache, fromCurrency, toCurrency, now)
    requires FetchExchangeRate(fromCurrency, toCurrency, ApiBaseUrl, fetch, parse) <= 0.0
    ensures var rate := FetchExchangeRate(fromCurrency, toCurrency, FallbackApiUrl, fetch, parse);
            ConvertCurrency(cache, fromCurrency, toCurrency, amount, now, later, fetch, parse) ==
            if rate > 0.0 then Conversion(Ok(Times(amount, rate)),
                                          RateCache(cache.rates[CacheKey(fromCurrency, toCurrency) := rate], later))
            else Conversion(Err(UnavailableMessage), cache)
  {
  }

  /** A successful fetch stamps the whole cache: every stored pair, not only
      the one fetched, is then a hit for 30 minutes. */
  lemma RefreshRevalidatesAll(cache: RateCache, fromCurrency: string, toCurrency: string, amount: real,
                              now: int, later: int, fetch: Fetcher, parse: Parser,
                              otherFrom: string, otherTo: string, t: int)
    requires fromCurrency != toCurrency && !IsHit(cache, fromCurrency, toCurrency, now)
    requires ConvertCurrency(cache, fromCurrency, toCurrency, amount, now, later, fetch, parse).amount.Ok?
    requires CacheKey(otherFrom, otherTo) in cache.rates
    requires later <= t < later + CacheDuration
    ensures IsHit(ConvertCurrency(cache, fromCurrency, toCurrency, amount, now, later, fetch, parse).cache,
                  otherFrom, otherTo, t)
    ensures IsHit(ConvertCurrency(cache, fromCurrency, toCurrency, amount, now, later, fetch, parse).cache,
                  fromCurrency, toCurrency, t)
  {
  }

  /** Clearing gives back the initial state, whose cache answers no pair. */
  lemma ClearIsInitial(cache: RateCache, fromCurrency: string, toCurrency: string, now: int)
    ensures ClearCache(cache) == InitialCache
    ensures !IsHit(ClearCache(cache), fromCurrency, toCurrency, now)
  {
  }

  // ---------------------------------------------------------------------------
  // Symbol and name tables

  const SupportedCurrencies: seq<string> := ["USD", "EUR", "GBP", "JPY", "INR", "CAD", "AUD", "CNY", "KRW", "RUB"]

  const Symbols: map<string, string> := map[
    "USD" := "$", "EUR" := "\U{20AC}", "GBP" := "\U{00A3}", "JPY" := "\U{00A5}", "INR" := "\U{20B9}",
    "CAD" := "C$", "AUD" := "A$", "CNY" := "\U{00A5}", "KRW" := "\U{20A9}", "RUB" := "\U{20BD}"]

  const Names: map<string, string> := map[
    "USD" := "US Dollar", "EUR" := "Euro", "GBP" := "British Pound", "JPY" := "Japanese Yen",
    "INR" := "Indian Rupee", "CAD" := "Canadian Dollar", "AUD" := "Australian Dollar",
    "CNY" := "Chinese Yuan", "KRW" := "South Korean Won", "RUB" := "Russian Ruble"]

  /** `getCurrencySymbol`: the table entry, or the code itself. */
  function CurrencySymbol(code: string): string {
    if code in Symbols then Symbols[code] else code
  }

  /** `getCurrencyName`: the table entry, or the code itself. */
  function CurrencyName(code: string): string {
    if code in Names then Names[code] else code
  }

  /** Both tables cover exactly the supported currencies, so those get a
      table entry and any other code is shown as itself. */
  lemma TablesCoverSupported(code: string)
    ensures Symbols.Keys == Names.Keys
    ensures code in Symbols <==> code in SupportedCurrencies
    ensures code !in SupportedCurrencies ==> CurrencySymbol(code) == code && CurrencyName(code) == code
  {
  }

  /** Names tell the currencies apart; symbols do not, since the yen and the
      yuan share one. */
  lemma NamesDistinctSymbolsNot(a: string, b: string)
    requires a in Names && b in Names && a != b
    ensures CurrencyName(a) != CurrencyName(b)
    ensures CurrencySymbol("JPY") == CurrencySymbol("CNY")
  {
  }
}

=== FILE: database_manager.dfy ===
/** `DatabaseManager`: the `conversion_history` table and its four
    statements, over an abstract table, once the connection is open. JDBC,
    the SQLite file and the dialogs are not modelled. An `SQLException` from
    a statement is a parameter, and every statement swallows it; a
    connection that never opened is outside the model. */
module DatabaseManager {
  import opened Base

  /** One row of `conversion_history`, and the `ConversionRecord` read back
      from it. The date is the `CURRENT_TIMESTAMP` default at insertion, as
      a clock reading. */
  datatype ConversionRecord = ConversionRecord(id: int, category: string, fromUnit: string, toUnit: string,
                                               inputValue: real, resultValue: real, conversionDate: int)

  /** The rows in insertion order and the table's AUTOINCREMENT counter: the
      largest id ever issued, which deletes do not lower. */
  datatype Table = Table(rows: seq<ConversionRecord>, lastId: int)

  const EmptyTable := Table([], 0)

  /** Ids grow with insertion order, are positive and never exceed the
      counter. */
  predicate Valid(t: Table) {
    && t.lastId >= 0
    && IdsIncreasing(t.rows)
    && (forall i :: 0 <= i < |t.rows| ==> 0 < t.rows[i].id <= t.lastId)
  }

  predicate IdsIncreasing(rows: seq<ConversionRecord>) {
    forall i, j :: 0 <= i < j < |rows| ==> rows[i].id < rows[j].id
  }

  predicate HasId(rows: seq<ConversionRecord>, id: int) {
    exists i :: 0 <= i < |rows| && rows[i].id == id
  }

  // ---------------------------------------------------------------------------
  // INSERT

  /** `saveConversion`. The three text columns are NOT NULL, so a `null`
      among them fails the statement, as does any storage error
      (`storageOk` false); the failure is only logged and the table stays as
      it was. Otherwise one row is appended with the next id and the clock
      reading `now`. */
  function Save(t: Table, category: Option<string>, fromUnit: Option<string>, toUnit: Option<string>,
                inputValue: real, resultValue: real, now: int, storageOk: bool): (r: Table)
    ensures Valid(t) ==> Valid(r)
    ensures r.lastId >= t.lastId
    ensures !storageOk || category.None? || fromUnit.None? || toUnit.None? ==> r == t
    ensures storageOk && category.Some? && fromUnit.Some? && toUnit.Some? ==>
              && r.rows == t.rows + [ConversionRecord(r.lastId, category.value, fromUnit.value, toUnit.value,
                                                      inputValue, resultValue, now)]
              && r.lastId > t.lastId
  {
    if !storageOk || category.None? || fromUnit.None? || toUnit.None? then t
    else
      var id := t.lastId + 1;
      Table(t.rows + [ConversionRecord(id, category.value, fromUnit.value, toUnit.value, inputValue, resultValue, now)], id)
  }

  // ---------------------------------------------------------------------------
  // SELECT ... ORDER BY conversion_date DESC LIMIT n

  /** Newest first. */
  predicate NewestFirst(s: seq<ConversionRecord>) {
    forall i, j :: 0 <= i < j < |s| ==> s[i].conversionDate >= s[j].conversionDate
  }

  /** Put `x` into a newest-first sequence, after the entries at least as
      new as it. */
  function InsertByDate(x: ConversionRecord, s: seq<ConversionRecord>): (r: seq<ConversionRecord>)
    ensures multiset(r) == multiset(s) + multiset{x}
  {
    if |s| == 0 then [x]
    else if s[0].conversionDate >= x.conversionDate then
      assert s == [s[0]] + s[1..];
      [s[0]] + InsertByDate(x, s[1..])
    else [x] + s
  }

  lemma {:induction false} InsertKeepsNewestFirst(x: ConversionRecord, s: seq<ConversionRecord>)
    requires NewestFirst(s)
    ensures NewestFirst(InsertByDate(x, s))
  {
    if |s| > 0 && s[0].conversionDate >= x.conversionDate {
      var rest := InsertByDate(x, s[1..]);
      InsertKeepsNewestFirst(x, s[1..]);
      forall k | 0 <= k < |rest|
        ensures s[0].conversionDate >= rest[k].conversionDate
      {
        assert rest[k] in multiset(rest);
        assert rest[k] in multiset(s[1..]) || rest[k] == x;
        if rest[k] != x {
          assert rest[k] in s[1..];
        }
      }
      ConsNewestFirst(s[0], rest);
    }
  }

  lemma ConsNewestFirst(x: ConversionRecord, rest: seq<ConversionRecord>)
    requires NewestFirst(rest) && forall k :: 0 <= k < |rest| ==> x.conversionDate >= rest[k].conversionDate
    ensures NewestFirst([x] + rest)
  {
    var s := [x] + rest;
    forall a, b | 0 <= a < b < |s|
      ensures s[a].conversionDate >= s[b].conversionDate
    {
      assert s[b] == rest[b - 1];
      if a > 0 {
        assert s[a] == rest[a - 1];
      }
    }
  }

  /** The table ordered by `conversion_date DESC`. Rows with equal dates come
      in an order SQL leaves open; this is one admissible order. */
  function SortByDate(rows: seq<ConversionRecord>): (r: seq<ConversionRecord>)
    ensures multiset(r) == multiset(rows)
    ensures |r| == |rows|
    ensures NewestFirst(r)
  {
    if |rows| == 0 then []
    else
      assert rows == [rows[0]] + rows[1..];
      InsertKeepsNewestFirst(rows[0], SortByDate(rows[1..]));
      InsertByDate(rows[0], SortByDate(rows[1..]))
  }

  /** `LIMIT n`: SQLite reads a negative limit as no limit. */
  function Limit(s: seq<ConversionRecord>, limit: int): (r: seq<ConversionRecord>)
    ensures |r| == if 0 <= limit < |s| then limit else |s|
    ensures r == s[..|r|]
  {
    if 0 <= limit < |s| then s[..limit] else s
  }

  /** A prefix of a newest-first sequence is newest-first and drawn from it. */
  lemma PrefixKeeps(s: seq<ConversionRecord>, n: int)
    requires 0 <= n <= |s|
    ensures multiset(s[..n]) <= multiset(s)
    ensures NewestFirst(s) ==> NewestFirst(s[..n])
  {
    assert s == s[..n] + s[n..];
    assert multiset(s) == multiset(s[..n]) + multiset(s[n..]);
  }

  /** `getConversionHistory(limit)`: on a storage error the empty list. */
  function History(t: Table, limit: int, storageOk: bool): (r: seq<ConversionRecord>)
    ensures !storageOk ==> r == []
    ensures storageOk ==> |r| == if 0 <= limit < |t.rows| then limit else |t.rows|
    ensures NewestFirst(r)
    ensures multiset(r) <= multiset(t.rows)
  {
    if !storageOk then []
    else
      var sorted := SortByDate(t.rows);
      var r := Limit(sorted, limit);
      PrefixKeeps(sorted, |r|);
      r
  }

  /** `getConversionHistory()`: the fixed limit 50. */
  const DefaultHistoryLimit := 50

  function RecentHistory(t: Table, storageOk: bool): (r: seq<ConversionRecord>)
    ensures storageOk ==> |r| == if |t.rows| < DefaultHistoryLimit then |t.rows| else DefaultHistoryLimit
    ensures NewestFirst(r) && multiset(r) <= multiset(t.rows)
  {
    History(t, DefaultHistoryLimit, storageOk)
  }

  /** A prefix of a newest-first ordering of `rows` is the newest of them:
      the rest of the ordering completes it to `rows`, and nothing in the
      rest is newer than anything in the prefix. */
  lemma PrefixIsNewest(sorted: seq<ConversionRecord>, rows: seq<ConversionRecord>, n: int)
    requires NewestFirst(sorted) && multiset(sorted) == multiset(rows) && 0 <= n <= |sorted|
    ensures exists rest: seq<ConversionRecord> ::
              && multiset(sorted[..n]) + multiset(rest) == multiset(rows)
              && forall i, j :: 0 <= i < n && 0 <= j < |rest| ==> rest[j].conversionDate <= sorted[..n][i].conversionDate
  {
    var rest := sorted[n..];
    assert sorted == sorted[..n] + rest;
    forall i, j | 0 <= i < n && 0 <= j < |rest|
      ensures rest[j].conversionDate <= sorted[..n][i].conversionDate
    {
      assert sorted[..n][i] == sorted[i] && rest[j] == sorted[n + j];
    }
  }

  /** The history is the newest rows: what it leaves out, together with what
      it returns, makes up the table, and nothing left out is newer than
      anything returned. */
  lemma HistoryIsNewest(t: Table, limit: int)
    ensures var r := History(t, limit, true);
            exists rest: seq<ConversionRecord> ::
              && multiset(r) + multiset(rest) == multiset(t.rows)
              && forall i, j :: 0 <= i < |r| && 0 <= j < |rest| ==> rest[j].conversionDate <= r[i].conversionDate
  {
    var sorted := SortByDate(t.rows);
    var r := Limit(sorted, limit);
    assert History(t, limit, true) == r;
    PrefixIsNewest(sorted, t.rows, |r|);
  }

  /** With no limit the history is the whole table, reordered: every saved
      row is read back with exactly its fields. */
  lemma UnlimitedHistoryIsTable(t: Table, limit: int)
    requires limit < 0
    ensures multiset(History(t, limit, true)) == multiset(t.rows)
  {
  }

  /** A save that is strictly the newest row heads every non-empty history
      read afterwards, with the id it was given and the fields it was saved
      with. */
  lemma SavedRowHeadsHistory(t: Table, category: string, fromUnit: string, toUnit: string,
                             inputValue: real, resultValue: real, now: int, limit: int)
    requires forall i :: 0 <= i < |t.rows| ==> t.rows[i].conversionDate < now
    requires limit != 0
    ensures var s := Save(t, Some(category), Some(fromUnit), Some(toUnit), inputValue, resultValue, now, true);
            History(s, limit, true)[0] ==
            ConversionRecord(t.lastId + 1, category, fromUnit, toUnit, inputValue, resultValue, now)
  {
    var x := ConversionRecord(t.lastId + 1, category, fromUnit, toUnit, inputValue, resultValue, now);
    var s := Save(t, Some(category), Some(fromUnit), Some(toUnit), inputValue, resultValue, now, true);
    assert s.rows == t.rows + [x];
    var sorted := SortByDate(s.rows);
    StrictlyNewestHeads(sorted, t.rows, x);
    assert History(s, limit, true) == Limit(sorted, limit);
  }

  /** In a newest-first ordering of older rows and `x`, a strictly newest
      `x` comes first. */
  lemma StrictlyNewestHeads(sorted: seq<ConversionRecord>, older: seq<ConversionRecord>, x: ConversionRecord)
    requires NewestFirst(sorted) && multiset(sorted) == multiset(older + [x])
    requires forall i :: 0 <= i < |older| ==> older[i].conversionDate < x.conversionDate
    ensures |sorted| > 0 && sorted[0] == x
  {
    assert x in multiset(older + [x]);
    assert x in multiset(sorted);
    var k :| 0 <= k < |sorted| && sorted[k] == x;
    assert sorted[0].conversionDate >= x.conversionDate;
    assert sorted[0] in multiset(older + [x]);
    assert sorted[0] in older + [x];
    assert sorted[0] !in older;
  }

  lemma RemoveIdStep(rows: seq<ConversionRecord>, id: int)
    requires |rows| > 0
    ensures RemoveId(rows, id) == if rows[0].id == id then RemoveId(rows[1..], id)
                                  else [rows[0]] + RemoveId(rows[1..], id)
  {
  }

  /** Deleting the id of row `i` from rows with increasing ids removes
      exactly that row and keeps the rest in order. */
  lemma {:induction false} RemoveIdAt(rows: seq<ConversionRecord>, i: int)
    requires IdsIncreasing(rows) && 0 <= i < |rows|
    ensures RemoveId(rows, rows[i].id) == rows[..i] + rows[i + 1..]
  {
    var id := rows[i].id;
    var tail := rows[1..];
    RemoveIdStep(rows, id);
    if i == 0 {
      forall k | 0 <= k < |tail|
        ensures tail[k].id != id
      {
        assert tail[k] == rows[k + 1];
      }
      RemoveAbsent(tail, id);
      assert rows[..0] + rows[1..] == tail;
    } else {
      assert rows[0].id < id;
      assert IdsIncreasing(tail) by {
        forall a, b | 0 <= a < b < |tail|
          ensures tail[a].id < tail[b].id
        {
          assert tail[a] == rows[a + 1] && tail[b] == rows[b + 1];
        }
      }
      assert tail[i - 1] == rows[i];
      RemoveIdAt(tail, i - 1);
      SpliceHead(rows, i);
    }
  }

  /** Cutting out entry `i > 0` keeps the head in front. */
  lemma SpliceHead<T>(s: seq<T>, i: int)
    requires 0 < i < |s|
    ensures s[..i] + s[i + 1..] == [s[0]] + (s[1..][..i - 1] + s[1..][i..])
  {
    assert s[1..][..i - 1] == s[1..i];
    assert s[1..][i..] == s[i + 1..];
    assert s[..i] == [s[0]] + s[1..i];
  }

  /** Removing an id that no row carries changes nothing. */
  lemma {:induction false} RemoveAbsent(rows: seq<ConversionRecord>, id: int)
    requires forall k :: 0 <= k < |rows| ==> rows[k].id != id
    ensures RemoveId(rows, id) == rows
  {
    if |rows| > 0 {
      RemoveIdStep(rows, id);
      assert forall k :: 0 <= k < |rows[1..]| ==> rows[1..][k] == rows[k + 1];
      RemoveAbsent(rows[1..], id);
      assert rows == [rows[0]] + rows[1..];
    }
  }

  /** `deleteConversion` on an existing id removes that one row and no
      other, and answers true. */
  lemma DeleteRemovesOneRow(t: Table, i: int)
    requires Valid(t) && 0 <= i < |t.rows|
    ensures DeleteConversion(t, t.rows[i].id, true) == (Table(t.rows[..i] + t.rows[i + 1..], t.lastId), true)
  {
    RemoveIdAt(t.rows, i);
  }

  /** Ids are never reused: a row saved after any delete gets an id above
      every id the table ever held. */
  lemma IdsNeverReused(t: Table, id: int, deleteAll: bool, storageOk: bool, category: string, fromUnit: string,
                       toUnit: string, inputValue: real, resultValue: real, now: int)
    requires Valid(t)
    ensures var d := if deleteAll then DeleteAllConversions(t, storageOk).0 else DeleteConversion(t, id, storageOk).0;
            var s := Save(d, Some(category), Some(fromUnit), Some(toUnit), inputValue, resultValue, now, true);
            && |s.rows| == |d.rows| + 1
            && forall i :: 0 <= i < |t.rows| ==> s.rows[|d.rows|].id > t.rows[i].id
  {
  }

  // ---------------------------------------------------------------------------
  // DELETE

  /** The rows whose id differs from `id`, in order. */
  function RemoveId(rows: seq<ConversionRecord>, id: int): (r: seq<ConversionRecord>)
    ensures forall x :: x in r <==> x in rows && x.id != id
    ensures |r| <= |rows|
  {
    if |rows| == 0 then []
    else if rows[0].id == id then RemoveId(rows[1..], id)
    else [rows[0]] + RemoveId(rows[1..], id)
  }

  /** Something is removed exactly when some row carries the id. */
  lemma {:induction false} RemoveIdShrinks(rows: seq<ConversionRecord>, id: int)
    ensures |RemoveId(rows, id)| < |rows| <==> HasId(rows, id)
  {
    if |rows| > 0 {
      RemoveIdShrinks(rows[1..], id);
      assert HasId(rows, id) <==> rows[0].id == id || HasId(rows[1..], id) by {
        assert forall k :: 0 <= k < |rows[1..]| ==> rows[1..][k] == rows[k + 1];
        if HasId(rows, id) && rows[0].id != id {
          var k :| 0 <= k < |rows| && rows[k].id == id;
          assert rows[1..][k - 1].id == id;
        }
      }
    }
  }

  /** Removing rows keeps the ids increasing. */
  lemma {:induction false} RemoveIdKeepsOrder(rows: seq<ConversionRecord>, id: int)
    ensures IdsIncreasing(rows) ==> IdsIncreasing(RemoveId(rows, id))
  {
    if |rows| > 0 && IdsIncreasing(rows) {
      var tail := rows[1..];
      assert IdsIncreasing(tail) by {
        forall a, b | 0 <= a < b < |tail|
          ensures tail[a].id < tail[b].id
        {
          assert tail[a] == rows[a + 1] && tail[b] == rows[b + 1];
        }
      }
      RemoveIdKeepsOrder(tail, id);
      var rest := RemoveId(tail, id);
      forall k | 0 <= k < |rest|
        ensures rows[0].id < rest[k].id
      {
        assert rest[k] in tail;
        var m :| 0 <= m < |tail| && tail[m] == rest[k];
        assert tail[m] == rows[m + 1];
      }
      RemoveIdStep(rows, id);
      if rows[0].id != id {
        ConsIncreasing(rows[0], rest);
      }
    }
  }

  lemma ConsIncreasing(x: ConversionRecord, rest: seq<ConversionRecord>)
    requires IdsIncreasing(rest) && forall k :: 0 <= k < |rest| ==> x.id < rest[k].id
    ensures IdsIncreasing([x] + rest)
  {
    var s := [x] + rest;
    forall a, b | 0 <= a < b < |s|
      ensures s[a].id < s[b].id
    {
      assert s[b] == rest[b - 1];
      if a > 0 {
        assert s[a] == rest[a - 1];
      }
    }
  }

  /** `deleteConversion(id)`: removes the row with that id and answers
      whether one was affected; a storage error answers false and changes
      nothing. The counter is untouched, so the id is never issued again. */
  function DeleteConversion(t: Table, id: int, storageOk: bool): (r: (Table, bool))
    ensures r.0.lastId == t.lastId
    ensures r.1 <==> storageOk && HasId(t.rows, id)
    ensures !storageOk ==> r.0 == t
    ensures forall x :: x in r.0.rows <==> x in t.rows && (!storageOk || x.id != id)
    ensures Valid(t) ==> Valid(r.0)
  {
    if !storageOk then (t, false)
    else
      var rows := RemoveId(t.rows, id);
      RemoveIdShrinks(t.rows, id);
      RemoveIdKeepsOrder(t.rows, id);
      (Table(rows, t.lastId), |rows| < |t.rows|)
  }

  /** `deleteAllConversions`: empties the table and answers true, since the
      affected count is never negative; a storage error answers false and
      changes nothing. The counter survives, as AUTOINCREMENT keeps it. */
  function DeleteAllConversions(t: Table, storageOk: bool): (r: (Table, bool))
    ensures r.1 == storageOk
    ensures storageOk ==> r.0.rows == [] && r.0.lastId == t.lastId
    ensures !storageOk ==> r.0 == t
    ensures Valid(t) ==> Valid(r.0)
  {
    if !storageOk then (t, false) else (Table([], t.lastId), true)
  }
}

=== FILE: java_lang.dfy ===
/** The pieces of `java.lang` the core relies on, stated once: `double`
    finiteness, `String.trim`, `indexOf`, `substring`, ASCII case mapping and
    the character classes of the regular expressions the core uses. */
module JavaLang {
  import opened Base

  /** A Java `double`. Finite values are exact reals; rounding is not modelled. */
  datatype Double = Finite(v: real) | NaN | Infinity(negative: bool)

  /** `Double.parseDouble`, abstracted: `None` is a `NumberFormatException`. */
  type Parser = string -> Option<real>

  // ---------------------------------------------------------------------------
  // Character classes

  /** The characters `String.trim` removes from both ends: code points up to U+0020. */
  predicate IsTrimmable(c: char) { c <= ' ' }

  /** `\d` and `[0-9]`. */
  predicate IsDigit(c: char) { '0' <= c <= '9' }

  /** `[A-Z]`. */
  predicate IsUpper(c: char) { 'A' <= c <= 'Z' }

  /** `[a-z]`. */
  predicate IsLower(c: char) { 'a' <= c <= 'z' }

  /** `[a-zA-Z0-9]`. */
  predicate IsAlphanumeric(c: char) { IsUpper(c) || IsLower(c) || IsDigit(c) }

  /** `\s` without the UNICODE_CHARACTER_CLASS flag: `[ \t\n\x0B\f\r]`. */
  predicate IsRegexSpace(c: char) {
    c == ' ' || c == '\t' || c == '\n' || c == '\U{000B}' || c == '\U{000C}' || c == '\r'
  }

  /** `Character.isSpaceChar`: the Unicode space, line and paragraph separators. */
  predicate IsSpaceChar(c: char) {
    || c == ' ' || c == '\U{00A0}' || c == '\U{1680}'
    || ('\U{2000}' <= c <= '\U{200A}')
    || c == '\U{2028}' || c == '\U{2029}' || c == '\U{202F}' || c == '\U{205F}' || c == '\U{3000}'
  }

  /** `Character.toUpperCase` restricted to ASCII letters. */
  function ToUpper(c: char): (r: char)
    ensures IsLower(c) ==> IsUpper(r)
    ensures !IsLower(c) ==> r == c
    ensures ToLower(r) == ToLower(c)
  {
    if IsLower(c) then (c as int - 32) as char else c
  }

  /** `Character.toLowerCase` restricted to ASCII letters. */
  function ToLower(c: char): (r: char)
    ensures IsUpper(c) ==> IsLower(r)
    ensures !IsUpper(c) ==> r == c
  {
    if IsUpper(c) then (c as int + 32) as char else c
  }

  /** `String.toLowerCase` restricted to ASCII letters. */
  function LowerCase(s: string): (r: string)
    ensures |r| == |s|
    ensures forall i :: 0 <= i < |s| ==> r[i] == ToLower(s[i])
  {
    seq(|s|, i requires 0 <= i < |s| => ToLower(s[i]))
  }

  /** `String.equalsIgnoreCase` for a non-null argument, ASCII letters only. */
  predicate EqualsIgnoreCase(a: string, b: string) {
    LowerCase(a) == LowerCase(b)
  }

  // ---------------------------------------------------------------------------
  // trim

  function TrimStart(s: string): (r: string)
    ensures |r| <= |s| && r == s[|s| - |r|..]
    ensures r == [] || !IsTrimmable(r[0])
    ensures forall i :: 0 <= i < |s| - |r| ==> IsTrimmable(s[i])
  {
    if |s| > 0 && IsTrimmable(s[0]) then TrimStart(s[1..]) else s
  }

  function TrimEnd(s: string): (r: string)
    ensures |r| <= |s| && r == s[..|r|]
    ensures r == [] || !IsTrimmable(r[|r| - 1])
    ensures forall i :: |r| <= i < |s| ==> IsTrimmable(s[i])
  {
    if |s| > 0 && IsTrimmable(s[|s| - 1]) then TrimEnd(s[..|s| - 1]) else s
  }

  /** `String.trim`. */
  function Trim(s: string): string {
    TrimEnd(TrimStart(s))
  }

  /** A string trims to "" exactly when every character is trimmable. */
  lemma TrimEmptyIff(s: string)
    ensures Trim(s) == [] <==> forall i :: 0 <= i < |s| ==> IsTrimmable(s[i])
  {
  }

  /** A position of a string that does not trim to "" holding a character
      above U+0020. */
  lemma NonBlankWitness(s: string) returns (j: nat)
    requires Trim(s) != []
    ensures j < |s| && !IsTrimmable(s[j])
  {
    TrimEmptyIff(s);
    j :| j < |s| && !IsTrimmable(s[j]);
  }

  /** A string that starts and ends with a character above U+0020 trims to
      itself. */
  lemma TrimUnchanged(s: string)
    requires |s| > 0 && !IsTrimmable(s[0]) && !IsTrimmable(s[|s| - 1])
    ensures Trim(s) == s
  {
    assert TrimStart(s) == s;
  }

  /** Trimming removes any padding of characters up to U+0020 around such a
      string. */
  lemma TrimStripsPadding(before: string, s: string, after: string)
    requires |s| > 0 && !IsTrimmable(s[0]) && !IsTrimmable(s[|s| - 1])
    requires forall i :: 0 <= i < |before| ==> IsTrimmable(before[i])
    requires forall i :: 0 <= i < |after| ==> IsTrimmable(after[i])
    ensures Trim(before + s + after) == s
  {
    var x := before + s + after;
    var a := TrimStart(x);
    assert x[|before|] == s[0];
    assert forall i :: 0 <= i < |before| ==> x[i] == before[i];
    assert |a| == |s| + |after|;
    assert a == s + after;
    var b := TrimEnd(a);
    assert a[|s| - 1] == s[|s| - 1];
    assert forall i :: |s| <= i < |a| ==> a[i] == after[i - |s|];
    assert |b| == |s|;
  }

  /** Trimming ignores one extra trailing space after such a string. */
  lemma TrimDropsTrailingSpace(s: string)
    requires |s| > 0 && !IsTrimmable(s[0]) && !IsTrimmable(s[|s| - 1])
    ensures Trim(s + " ") == s
  {
    var t := s + " ";
    assert TrimStart(t) == t;
    assert t[..|s|] == s;
  }

  /** The guard `str == null || str.trim().isEmpty()` that recurs in the core. */
  predicate IsBlank(s: Option<string>) {
    s.None? || Trim(s.value) == []
  }

  /** One character above U+0020 makes a string non-blank. */
  lemma NotBlank(s: string, j: nat)
    requires j < |s| && !IsTrimmable(s[j])
    ensures !IsBlank(Some(s))
  {
    TrimEmptyIff(s);
  }

  /** Blank means null or made only of trimmable characters. */
  lemma BlankIff(s: Option<string>)
    ensures IsBlank(s) <==> s.None? || forall i :: 0 <= i < |s.value| ==> IsTrimmable(s.value[i])
  {
    if s.Some? {
      TrimEmptyIff(s.value);
    }
  }

  // ---------------------------------------------------------------------------
  // indexOf, contains, substring

  predicate MatchesAt(s: string, p: string, i: int) {
    0 <= i && i + |p| <= |s| && s[i..i + |p|] == p
  }

  /** The first match of `p` in `s` at or after `i`, or -1. */
  function FirstMatch(s: string, p: string, i: nat): (r: int)
    ensures r == -1 || (i <= r && MatchesAt(s, p, r))
    ensures forall j :: i <= j && (r == -1 || j < r) ==> !MatchesAt(s, p, j)
    decreases |s| + 1 - i
  {
    if i + |p| > |s| then -1
    else if s[i..i + |p|] == p then i
    else FirstMatch(s, p, i + 1)
  }

  /** `s.indexOf(p, from)`: a negative `from` counts as 0. */
  function IndexOf(s: string, p: string, from: int): (r: int)
    ensures r == -1 || (from <= r && MatchesAt(s, p, r))
    ensures forall j :: from <= j && (r == -1 || j < r) ==> !MatchesAt(s, p, j)
  {
    FirstMatch(s, p, if from < 0 then 0 else from)
  }

  /** `indexOf` finds a match when no earlier one exists from `from` on. */
  lemma IndexOfAt(s: string, p: string, from: int, m: int)
    requires 0 <= from <= m && MatchesAt(s, p, m)
    requires forall j :: from <= j < m ==> !MatchesAt(s, p, j)
    ensures IndexOf(s, p, from) == m
  {
  }

  /** `indexOf` finds a match when no character before it, from `from` on,
      could start one. */
  lemma IndexOfByFirstChar(s: string, p: string, from: int, m: int)
    requires |p| > 0 && 0 <= from <= m && MatchesAt(s, p, m)
    requires forall j :: from <= j < m ==> s[j] != p[0]
    ensures IndexOf(s, p, from) == m
  {
    forall j | from <= j < m
      ensures !MatchesAt(s, p, j)
    {
      MatchHasFirstTwo(s, p, j);
    }
    IndexOfAt(s, p, from, m);
  }

  /** A match shows the first characters of the pattern. */
  lemma MatchHasFirstTwo(s: string, p: string, i: int)
    ensures MatchesAt(s, p, i) && |p| > 0 ==> s[i] == p[0]
    ensures MatchesAt(s, p, i) && |p| > 1 ==> s[i + 1] == p[1]
  {
    if MatchesAt(s, p, i) && |p| > 0 {
      assert s[i..i + |p|][0] == s[i];
      if |p| > 1 {
        assert s[i..i + |p|][1] == s[i + 1];
      }
    }
  }

  /** A one-character pattern matches exactly where that character stands. */
  lemma MatchesAtChar(s: string, c: char, i: int)
    ensures MatchesAt(s, [c], i) <==> 0 <= i < |s| && s[i] == c
  {
    if 0 <= i < |s| {
      assert s[i..i + 1] == [s[i]];
    }
  }

  /** Double `*` and `/` on exact reals, as named operations: keeping a
      product behind a name stops the prover from unfolding it in every
      context that mentions it. */
  function Times(value: real, factor: real): real {
    value * factor
  }

  function Over(value: real, factor: real): real
    requires factor != 0.0
  {
    value / factor
  }

  /** `s.contains(p)`. */
  predicate Contains(s: string, p: string) {
    IndexOf(s, p, 0) != -1
  }

  /** A string contains each of its infixes. */
  lemma ContainsInfix(a: string, p: string, b: string)
    ensures Contains(a + p + b, p)
  {
    assert (a + p + b)[|a|..|a| + |p|] == p;
    assert MatchesAt(a + p + b, p, |a|);
  }

  /** A string none of whose characters starts `p` does not contain `p`. */
  lemma NotContainsWithoutFirstChar(s: string, p: string)
    requires |p| > 0
    requires forall i :: 0 <= i < |s| ==> s[i] != p[0]
    ensures !Contains(s, p)
  {
    var r := IndexOf(s, p, 0);
    MatchHasFirstTwo(s, p, r);
  }

  /** `s.substring(begin, end)`, which throws StringIndexOutOfBoundsException
      unless `0 <= begin <= end <= length`. */
  function Substring(s: string, begin: int, end: int): (r: Result<string>)
    ensures r.Ok? <==> 0 <= begin <= end <= |s|
    ensures r.Ok? ==> |r.value| == end - begin && r.value == s[begin..end]
  {
    if 0 <= begin <= end <= |s| then Ok(s[begin..end])
    else Err("StringIndexOutOfBoundsException")
  }

  // ---------------------------------------------------------------------------
  // Runs of one character at either end (the regexes `^c+` and `c*$`)

  /** `s` without its leading run of `c`. */
  function DropLeading(s: string, c: char): (r: string)
    ensures |r| <= |s| && r == s[|s| - |r|..]
    ensures r == [] || r[0] != c
    ensures forall i :: 0 <= i < |s| - |r| ==> s[i] == c
  {
    if |s| > 0 && s[0] == c then DropLeading(s[1..], c) else s
  }

  /** `s` without its trailing run of `c`. */
  function DropTrailing(s: string, c: char): (r: string)
    ensures |r| <= |s| && r == s[..|r|]
    ensures r == [] || r[|r| - 1] != c
    ensures forall i :: |r| <= i < |s| ==> s[i] == c
  {
    if |s| > 0 && s[|s| - 1] == c then DropTrailing(s[..|s| - 1], c) else s
  }
}

=== FILE: string_utils.dfy ===
/** `StringUtils`: null-tolerant string helpers. Every helper that starts with
    the blank guard returns a null or blank argument unchanged (or its
    documented default). */
module StringUtils {
  import opened Base
  import opened JavaLang

  /** `isNullOrEmpty` and `isBlank` are the same test: null, or nothing left
      after `trim`. */
  predicate IsNullOrEmpty(str: Option<string>) {
    IsBlank(str)
  }

  /** Both names accept exactly null and the strings made only of characters
      up to U+0020; any other character makes a string non-blank. */
  lemma NullOrEmptyIff(str: Option<string>)
    ensures IsNullOrEmpty(str) <==> str.None? || forall i :: 0 <= i < |str.value| ==> IsTrimmable(str.value[i])
    ensures str.Some? && (exists i :: 0 <= i < |str.value| && !IsTrimmable(str.value[i])) ==> !IsNullOrEmpty(str)
  {
    BlankIff(str);
  }

  // ---------------------------------------------------------------------------
  // Words: `split("\\s+")`

  /** The length of the leading run of non-`\s` characters. */
  function RunLength(s: string): (n: nat)
    ensures n <= |s|
    ensures forall i :: 0 <= i < n ==> !IsRegexSpace(s[i])
    ensures n == |s| || IsRegexSpace(s[n])
  {
    if s == [] || IsRegexSpace(s[0]) then 0 else 1 + RunLength(s[1..])
  }

  /** A word: non-empty, with no character up to U+0020 (so no `\s` either). */
  predicate IsWord(w: string) {
    |w| > 0 && forall i :: 0 <= i < |w| ==> !IsTrimmable(w[i])
  }

  /** The maximal runs of non-`\s` characters of `s`, in order. */
  function Words(s: string): (ws: seq<string>)
    ensures forall k :: 0 <= k < |ws| ==> |ws[k]| > 0
    decreases |s|
  {
    if s == [] then []
    else if IsRegexSpace(s[0]) then Words(s[1..])
    else
      var n := RunLength(s);
      [s[..n]] + Words(s[n..])
  }

  /** `s.split("\\s+")`: the words, preceded by "" when `s` starts with
      whitespace; trailing empty strings are dropped, so all-whitespace text
      splits into nothing and "" into [""]. */
  function Split(s: string): (parts: seq<string>)
    ensures s != [] && !IsRegexSpace(s[0]) ==> parts == Words(s)
    ensures forall k :: 0 < k < |parts| ==> |parts[k]| > 0
  {
    if s == [] then [""]
    else if IsRegexSpace(s[0]) && Words(s) != [] then [""] + Words(s)
    else Words(s)
  }

  /** The words separated by single spaces. */
  function Unwords(ws: seq<string>): string {
    if ws == [] then ""
    else if |ws| == 1 then ws[0]
    else ws[0] + " " + Unwords(ws[1..])
  }

  /** Splitting words joined by single spaces gives the words back. */
  lemma {:induction false} WordsOfUnwords(ws: seq<string>)
    requires forall k :: 0 <= k < |ws| ==> IsWord(ws[k])
    ensures Words(Unwords(ws)) == ws
    decreases |ws|
  {
    if ws == [] {
    } else if |ws| == 1 {
      var w := ws[0];
      assert forall i :: 0 <= i < |w| ==> !IsRegexSpace(w[i]);
      assert RunLength(w) == |w|;
      assert w[..|w|] == w && w[|w|..] == [];
    } else {
      var w, rest := ws[0], Unwords(ws[1..]);
      var s := w + " " + rest;
      assert s[|w|] == ' ';
      assert forall i :: 0 <= i < |w| ==> s[i] == w[i] && !IsRegexSpace(s[i]);
      var n := RunLength(s);
      assert n == |w|;
      assert s[..n] == w;
      assert s[n..][1..] == rest;
      WordsOfUnwords(ws[1..]);
    }
  }

  /** Joined words start and end with a character above U+0020. */
  lemma {:induction false} UnwordsEnds(ws: seq<string>)
    requires |ws| > 0 && forall k :: 0 <= k < |ws| ==> IsWord(ws[k])
    ensures |Unwords(ws)| > 0
    ensures !IsTrimmable(Unwords(ws)[0]) && !IsTrimmable(Unwords(ws)[|Unwords(ws)| - 1])
    decreases |ws|
  {
    if |ws| > 1 {
      UnwordsEnds(ws[1..]);
      var s := ws[0] + " " + Unwords(ws[1..]);
      assert s[0] == ws[0][0];
      assert s[|s| - 1] == Unwords(ws[1..])[|Unwords(ws[1..])| - 1];
    }
  }

  // ---------------------------------------------------------------------------
  // capitalizeWords, wordCount

  /** The first character upper-cased, the rest lower-cased. */
  function CapitalizeFirst(w: string): (r: string)
    requires |w| > 0
    ensures |r| == |w| && r[0] == ToUpper(w[0])
    ensures forall i :: 1 <= i < |w| ==> r[i] == ToLower(w[i])
  {
    [ToUpper(w[0])] + LowerCase(w[1..])
  }

  /** The loop of `capitalizeWords`: every non-empty part, capitalised and
      followed by one space. */
  function CapitalizeParts(parts: seq<string>): string {
    if parts == [] then ""
    else if parts[0] == [] then CapitalizeParts(parts[1..])
    else CapitalizeFirst(parts[0]) + " " + CapitalizeParts(parts[1..])
  }

  /** Each of `ws` capitalised. */
  function CapitalizeEach(ws: seq<string>): (r: seq<string>)
    requires forall k :: 0 <= k < |ws| ==> |ws[k]| > 0
    ensures |r| == |ws| && forall k :: 0 <= k < |ws| ==> r[k] == CapitalizeFirst(ws[k])
  {
    seq(|ws|, k requires 0 <= k < |ws| => CapitalizeFirst(ws[k]))
  }

  /** `capitalizeWords`. */
  function CapitalizeWords(str: Option<string>): (r: Option<string>)
    ensures IsBlank(str) ==> r == str
    ensures r.Some? <==> str.Some?
  {
    if IsBlank(str) then str
    else Some(Trim(CapitalizeParts(Split(str.value))))
  }

  /** Text with no control characters: every character up to U+0020 is `\s`. */
  predicate NoControlChars(s: string) {
    forall i :: 0 <= i < |s| ==> IsTrimmable(s[i]) ==> IsRegexSpace(s[i])
  }

  /** Capitalising keeps every character above U+0020 above it. */
  lemma CapitalizeFirstIsWord(w: string)
    requires IsWord(w)
    ensures IsWord(CapitalizeFirst(w))
  {
  }

  /** The loop leaves the capitalised words joined by spaces, plus one space. */
  lemma {:induction false} CapitalizePartsOfWords(ws: seq<string>)
    requires |ws| > 0 && forall k :: 0 <= k < |ws| ==> |ws[k]| > 0
    ensures CapitalizeParts(ws) == Unwords(CapitalizeEach(ws)) + " "
    decreases |ws|
  {
    if |ws| > 1 {
      CapitalizePartsOfWords(ws[1..]);
      assert CapitalizeEach(ws)[1..] == CapitalizeEach(ws[1..]);
    }
  }

  /** The words of text without control characters have none either. */
  lemma {:induction false} WordsAreWords(s: string)
    requires NoControlChars(s)
    ensures forall k :: 0 <= k < |Words(s)| ==> IsWord(Words(s)[k])
    decreases |s|
  {
    if s != [] {
      assert NoControlChars(s[1..]) by {
        forall i | 0 <= i < |s[1..]| ensures IsTrimmable(s[1..][i]) ==> IsRegexSpace(s[1..][i]) {
          assert s[1..][i] == s[i + 1];
        }
      }
      if IsRegexSpace(s[0]) {
        WordsAreWords(s[1..]);
      } else {
        var n := RunLength(s);
        assert NoControlChars(s[n..]) by {
          forall i | 0 <= i < |s[n..]| ensures IsTrimmable(s[n..][i]) ==> IsRegexSpace(s[n..][i]) {
            assert s[n..][i] == s[n + i];
          }
        }
        WordsAreWords(s[n..]);
        assert IsWord(s[..n]) by {
          forall i | 0 <= i < n ensures !IsTrimmable(s[..n][i]) {
            assert s[..n][i] == s[i];
          }
        }
      }
    }
  }

  /** Text with a character that is not `\s` has a word. */
  lemma {:induction false} WordsNonEmpty(s: string, j: nat)
    requires j < |s| && !IsRegexSpace(s[j])
    ensures Words(s) != []
    decreases |s|
  {
    if IsRegexSpace(s[0]) {
      assert s[1..][j - 1] == s[j];
      WordsNonEmpty(s[1..], j - 1);
    }
  }

  /** For text without control characters, `capitalizeWords` is the
      capitalised words joined by single spaces: runs of whitespace collapse
      and leading and trailing whitespace goes. */
  lemma CapitalizeWordsSpec(s: string)
    requires NoControlChars(s) && !IsBlank(Some(s))
    ensures Words(s) != []
    ensures CapitalizeWords(Some(s)) == Some(Unwords(CapitalizeEach(Words(s))))
  {
    HasWord(s);
    var ws := Words(s);
    CapitalizeSplit(s);
    CapitalizePartsOfWords(ws);
    WordsAreWords(s);
    CapitalizedWordsAreWords(ws);
    var caps := CapitalizeEach(ws);
    UnwordsEnds(caps);
    TrimDropsTrailingSpace(Unwords(caps));
  }

  /** Non-blank text has a word. */
  lemma HasWord(s: string)
    requires !IsBlank(Some(s))
    ensures Words(s) != []
  {
    var j := NonBlankWitness(s);
    WordsNonEmpty(s, j);
  }

  /** The leading "" of a split is skipped by the loop. */
  lemma CapitalizeSplit(s: string)
    ensures CapitalizeParts(Split(s)) == CapitalizeParts(Words(s))
  {
    if s != [] && IsRegexSpace(s[0]) && Words(s) != [] {
      assert Split(s)[1..] == Words(s);
    }
  }

  lemma CapitalizedWordsAreWords(ws: seq<string>)
    requires forall k :: 0 <= k < |ws| ==> IsWord(ws[k])
    ensures forall k :: 0 <= k < |ws| ==> |ws[k]| > 0
    ensures forall k :: 0 <= k < |ws| ==> IsWord(CapitalizeEach(ws)[k])
  {
    forall k | 0 <= k < |ws| ensures IsWord(CapitalizeEach(ws)[k]) {
      CapitalizeFirstIsWord(ws[k]);
    }
  }

  /** Capitalising words joined by single spaces capitalises each of them. */
  lemma CapitalizeWordsOfUnwords(ws: seq<string>)
    requires |ws| > 0 && forall k :: 0 <= k < |ws| ==> IsWord(ws[k])
    ensures forall k :: 0 <= k < |ws| ==> |ws[k]| > 0
    ensures CapitalizeWords(Some(Unwords(ws))) == Some(Unwords(CapitalizeEach(ws)))
  {
    var s := Unwords(ws);
    UnwordsEnds(ws);
    assert NoControlChars(s) by {
      forall i | 0 <= i < |s| && IsTrimmable(s[i]) ensures IsRegexSpace(s[i]) {
        UnwordsChars(ws, i);
      }
    }
    WordsOfUnwords(ws);
    CapitalizeWordsSpec(s);
  }

  /** Every character of joined words is a word character or the space. */
  lemma {:induction false} UnwordsChars(ws: seq<string>, i: nat)
    requires forall k :: 0 <= k < |ws| ==> IsWord(ws[k])
    requires i < |Unwords(ws)|
    ensures !IsTrimmable(Unwords(ws)[i]) || Unwords(ws)[i] == ' '
    decreases |ws|
  {
    if |ws| > 1 && i > |ws[0]| {
      var s := ws[0] + " " + Unwords(ws[1..]);
      assert s[i] == Unwords(ws[1..])[i - |ws[0]| - 1];
      UnwordsChars(ws[1..], i - |ws[0]| - 1);
    }
  }

  /** `wordCount`: 0 when blank, otherwise the parts of the trimmed text;
      trimmed text does not start with whitespace, so these are its words. */
  function WordCount(str: Option<string>): (n: nat)
    ensures IsBlank(str) <==> n == 0
    ensures !IsBlank(str) ==> n == |Words(Trim(str.value))|
  {
    if IsBlank(str) then 0
    else
      var t := Trim(str.value);
      assert !IsRegexSpace(t[0]);
      WordsNonEmpty(t, 0);
      |Split(t)|
  }

  /** Words joined by single spaces count as that many words. */
  lemma WordCountOfUnwords(ws: seq<string>)
    requires |ws| > 0 && forall k :: 0 <= k < |ws| ==> IsWord(ws[k])
    ensures WordCount(Some(Unwords(ws))) == |ws|
  {
    UnwordsEnds(ws);
    TrimUnchanged(Unwords(ws));
    WordsOfUnwords(ws);
  }

  /** `capitalizeWords` keeps the word count of text without control
      characters. */
  lemma CapitalizeWordsKeepsCount(s: string)
    requires NoControlChars(s) && !IsBlank(Some(s))
    ensures WordCount(CapitalizeWords(Some(s))) == |Words(s)|
  {
    CapitalizeWordsSpec(s);
    WordsAreWords(s);
    CapitalizedWordsAreWords(Words(s));
    WordCountOfUnwords(CapitalizeEach(Words(s)));
  }

  // ---------------------------------------------------------------------------
  // toTitleCase

  /** The loop of `toTitleCase` from a given `nextTitleCase` flag: a space
      character is kept and raises the flag, the next other character is
      title-cased (upper-cased, for ASCII) and lowers it, and the rest are
      lower-cased. */
  function TitleFrom(s: string, nextTitle: bool): (r: string)
    ensures |r| == |s|
  {
    if s == [] then []
    else if IsSpaceChar(s[0]) then [s[0]] + TitleFrom(s[1..], true)
    else if nextTitle then [ToUpper(s[0])] + TitleFrom(s[1..], false)
    else [ToLower(s[0])] + TitleFrom(s[1..], false)
  }

  /** `toTitleCase`. */
  function ToTitleCase(str: Option<string>): (r: Option<string>)
    ensures IsBlank(str) ==> r == str
    ensures str.Some? ==> r.Some? && |r.value| == |str.value|
  {
    if IsBlank(str) then str else Some(TitleFrom(str.value, true))
  }

  /** What position `i` of the title-cased text holds, stated without the
      loop: a space character stays, a character that starts a word (at the
      start of the text or after a space character) is upper-cased, any other
      is lower-cased. */
  function TitleCharAt(s: string, i: nat): char
    requires i < |s|
  {
    if IsSpaceChar(s[i]) then s[i]
    else if i == 0 || IsSpaceChar(s[i - 1]) then ToUpper(s[i])
    else ToLower(s[i])
  }

  lemma {:induction false} TitleFromAt(s: string, nextTitle: bool, i: nat)
    requires i < |s|
    ensures TitleFrom(s, nextTitle)[i] ==
            if IsSpaceChar(s[i]) then s[i]
            else if (i == 0 && nextTitle) || (i > 0 && IsSpaceChar(s[i - 1])) then ToUpper(s[i])
            else ToLower(s[i])
    decreases i
  {
    if i > 0 {
      TitleFromAt(s[1..], IsSpaceChar(s[0]), i - 1);
      assert s[1..][i - 1] == s[i];
      if i > 1 {
        assert s[1..][i - 2] == s[i - 1];
      }
    }
  }

  /** `toTitleCase` agrees position by position with `TitleCharAt`; in
      particular it keeps the length and the positions of the space
      characters. */
  lemma ToTitleCaseSpec(s: string)
    requires !IsBlank(Some(s))
    ensures |ToTitleCase(Some(s)).value| == |s|
    ensures forall i :: 0 <= i < |s| ==> ToTitleCase(Some(s)).value[i] == TitleCharAt(s, i)
    ensures forall i :: 0 <= i < |s| ==> (IsSpaceChar(ToTitleCase(Some(s)).value[i]) <==> IsSpaceChar(s[i]))
  {
    forall i | 0 <= i < |s|
      ensures ToTitleCase(Some(s)).value[i] == TitleCharAt(s, i)
    {
      TitleFromAt(s, true, i);
    }
  }

  // ---------------------------------------------------------------------------
  // removeNonAlphanumeric

  /** `replaceAll("[^a-zA-Z0-9]", "")`: the ASCII letters and digits, in order. */
  function KeepAlphanumeric(s: string): (r: string)
    ensures |r| <= |s|
    ensures forall i :: 0 <= i < |r| ==> IsAlphanumeric(r[i])
  {
    if s == [] then []
    else if IsAlphanumeric(s[0]) then [s[0]] + KeepAlphanumeric(s[1..])
    else KeepAlphanumeric(s[1..])
  }

  /** `removeNonAlphanumeric`. */
  function RemoveNonAlphanumeric(str: Option<string>): (r: Option<string>)
    ensures IsBlank(str) ==> r == str
    ensures !IsBlank(str) ==> r.Some? && forall i :: 0 <= i < |r.value| ==> IsAlphanumeric(r.value[i])
  {
    if IsBlank(str) then str else Some(KeepAlphanumeric(str.value))
  }

  /** Filtering works piecewise, keeps text that is already alphanumeric,
      and keeps each letter and digit as often as it occurs. */
  lemma {:induction false} KeepAlphanumericAppend(a: string, b: string)
    ensures KeepAlphanumeric(a + b) == KeepAlphanumeric(a) + KeepAlphanumeric(b)
    decreases |a|
  {
    if a != [] {
      assert (a + b)[0] == a[0];
      assert (a + b)[1..] == a[1..] + b;
      KeepAlphanumericAppend(a[1..], b);
    } else {
      assert a + b == b;
    }
  }

  lemma {:induction false} KeepAlphanumericFixes(s: string)
    requires forall i :: 0 <= i < |s| ==> IsAlphanumeric(s[i])
    ensures KeepAlphanumeric(s) == s
    decreases |s|
  {
    if s != [] {
      KeepAlphanumericFixes(s[1..]);
    }
  }

  lemma {:induction false} KeepAlphanumericCounts(s: string, c: char)
    ensures multiset(KeepAlphanumeric(s))[c] == if IsAlphanumeric(c) then multiset(s)[c] else 0
    decreases |s|
  {
    if s != [] {
      KeepAlphanumericCounts(s[1..], c);
      assert s == [s[0]] + s[1..];
      assert multiset(s) == multiset([s[0]]) + multiset(s[1..]);
    }
  }

  /** Removing twice is removing once. */
  lemma RemoveNonAlphanumericIdempotent(str: Option<string>)
    ensures RemoveNonAlphanumeric(RemoveNonAlphanumeric(str)) == RemoveNonAlphanumeric(str)
  {
    if !IsBlank(str) {
      var r := KeepAlphanumeric(str.value);
      KeepAlphanumericFixes(r);
    }
  }

  // ---------------------------------------------------------------------------
  // truncate

  /** `truncate`. A blank or short enough string comes back unchanged; a
      limit up to 3 cuts without an ellipsis (and a negative one makes
      `substring` throw); a larger one keeps `maxLength - 3` characters and
      appends "...". */
  function Truncate(str: Option<string>, maxLength: int): (r: Result<Option<string>>)
    ensures r.Err? <==> !IsBlank(str) && maxLength < 0
    ensures r.Ok? && (IsBlank(str) || |str.value| <= maxLength) ==> r.value == str
    ensures r.Ok? && !IsBlank(str) && |str.value| > maxLength ==>
              r.value.Some? && |r.value.value| == maxLength &&
              (maxLength <= 3 ==> r.value.value == str.value[..maxLength]) &&
              (maxLength > 3 ==> r.value.value == str.value[..maxLength - 3] + "...")
  {
    if IsBlank(str) || |str.value| <= maxLength then Ok(str)
    else if maxLength <= 3 then
      match Substring(str.value, 0, maxLength)
      case Ok(t) => Ok(Some(t))
      case Err(e) => Err(e)
    else Ok(Some(str.value[..maxLength - 3] + "..."))
  }

  /** With a non-negative limit the result never exceeds it unless the text
      is blank, and truncating again changes nothing. */
  lemma TruncateBoundedIdempotent(s: string, maxLength: nat)
    requires !IsBlank(Some(s)) && |s| > maxLength
    ensures Truncate(Some(s), maxLength).Ok?
    ensures |Truncate(Some(s), maxLength).value.value| <= maxLength
    ensures Truncate(Truncate(Some(s), maxLength).value, maxLength) == Truncate(Some(s), maxLength)
  {
  }

  // ---------------------------------------------------------------------------
  // reverse

  /** The characters of `s` in reverse order. */
  function Reversed(s: string): (r: string)
    ensures |r| == |s|
    ensures forall i :: 0 <= i < |s| ==> r[i] == s[|s| - 1 - i]
  {
    if s == [] then [] else Reversed(s[1..]) + [s[0]]
  }

  /** `reverse`. */
  function Reverse(str: Option<string>): (r: Option<string>)
    ensures IsBlank(str) ==> r == str
    ensures str.Some? ==> r.Some? && |r.value| == |str.value|
  {
    if IsBlank(str) then str else Some(Reversed(str.value))
  }

  /** Reversing a reversal gives the string back, blank or not. */
  lemma ReverseInvolution(str: Option<string>)
    ensures Reverse(Reverse(str)) == str
  {
    if !IsBlank(str) {
      var r := Reversed(str.value);
      assert Reversed(r) == str.value;
      assert !IsBlank(Some(r)) by {
        var j := NonBlankWitness(str.value);
        assert r[|r| - 1 - j] == str.value[j];
        BlankIff(Some(r));
      }
    }
  }

  // ---------------------------------------------------------------------------
  // isNumeric, isDecimal

  /** The length of the leading run of `[0-9]`. */
  function DigitRun(s: string): (n: nat)
    ensures n <= |s|
    ensures forall i :: 0 <= i < n ==> IsDigit(s[i])
    ensures n == |s| || !IsDigit(s[n])
  {
    if s == [] || !IsDigit(s[0]) then 0 else 1 + DigitRun(s[1..])
  }

  predicate AllDigits(s: string) {
    forall i :: 0 <= i < |s| ==> IsDigit(s[i])
  }

  /** `matches("\d+")`. */
  predicate MatchesDigits(s: string) {
    |s| > 0 && DigitRun(s) == |s|
  }

  /** `\d+(\.\d+)?`: digits, and optionally a point followed by digits. */
  predicate MatchesUnsigned(t: string) {
    var n := DigitRun(t);
    n > 0 && (n == |t| || (t[n] == '.' && MatchesDigits(t[n + 1..])))
  }

  /** `matches("-?\d+(\.\d+)?")`. A leading '-' can only be read by the
      optional sign, since `\d` does not match it. */
  predicate MatchesDecimal(s: string) {
    if |s| > 0 && s[0] == '-' then MatchesUnsigned(s[1..]) else MatchesUnsigned(s)
  }

  /** `isNumeric`. */
  predicate IsNumeric(str: Option<string>) {
    !IsBlank(str) && MatchesDigits(str.value)
  }

  /** `isDecimal`. */
  predicate IsDecimal(str: Option<string>) {
    !IsBlank(str) && MatchesDecimal(str.value)
  }

  /** Digits are never blank, so `isNumeric` holds exactly for non-empty
      all-digit text. */
  lemma NumericIff(s: string)
    ensures IsNumeric(Some(s)) <==> |s| > 0 && AllDigits(s)
  {
    if |s| > 0 && AllDigits(s) {
      NotBlank(s, 0);
    }
  }

  /** Integer digits and an optional fraction after a point. */
  function UnsignedText(integerDigits: string, fraction: Option<string>): string {
    integerDigits + (if fraction.Some? then "." + fraction.value else "")
  }

  /** The text a decimal is read from: sign, integer digits, optional fraction. */
  function DecimalText(negative: bool, integerDigits: string, fraction: Option<string>): string {
    (if negative then "-" else "") + UnsignedText(integerDigits, fraction)
  }

  /** The parts `isDecimal` reads: a non-empty digit string and an optional
      non-empty digit fraction. */
  predicate WellFormedParts(integerDigits: string, fraction: Option<string>) {
    |integerDigits| > 0 && AllDigits(integerDigits) &&
    (fraction.Some? ==> |fraction.value| > 0 && AllDigits(fraction.value))
  }

  /** The integer digits and fraction of unsigned text. */
  function UnsignedParts(t: string): (string, Option<string>) {
    var n := DigitRun(t);
    (t[..n], if n == |t| then None else Some(t[n + 1..]))
  }

  /** The sign, integer digits and fraction of decimal text. */
  function DecimalParts(s: string): (bool, string, Option<string>) {
    var negative := |s| > 0 && s[0] == '-';
    var parts := UnsignedParts(if negative then s[1..] else s);
    (negative, parts.0, parts.1)
  }

  /** Every sign and well-formed parts give text `isDecimal` accepts, and
      reading the parts back from that text gives the same parts. */
  lemma DecimalRoundTrip(negative: bool, integerDigits: string, fraction: Option<string>)
    requires WellFormedParts(integerDigits, fraction)
    ensures IsDecimal(Some(DecimalText(negative, integerDigits, fraction)))
    ensures DecimalParts(DecimalText(negative, integerDigits, fraction)) == (negative, integerDigits, fraction)
  {
    var t := UnsignedText(integerDigits, fraction);
    UnsignedRoundTrip(integerDigits, fraction);
    var s := DecimalText(negative, integerDigits, fraction);
    assert t[0] == integerDigits[0];
    if negative {
      assert s[1..] == t;
      assert s[0] == '-';
    } else {
      assert s == t;
      assert IsDigit(s[0]);
    }
    NotBlank(s, 0);
  }

  lemma UnsignedRoundTrip(integerDigits: string, fraction: Option<string>)
    requires WellFormedParts(integerDigits, fraction)
    ensures MatchesUnsigned(UnsignedText(integerDigits, fraction))
    ensures UnsignedParts(UnsignedText(integerDigits, fraction)) == (integerDigits, fraction)
  {
    var t := UnsignedText(integerDigits, fraction);
    var k := |integerDigits|;
    assert forall i :: 0 <= i < k ==> t[i] == integerDigits[i];
    assert k < |t| ==> t[k] == '.';
    assert DigitRun(t) == k;
    assert t[..k] == integerDigits;
    if fraction.Some? {
      assert t[k + 1..] == fraction.value;
      assert DigitRun(fraction.value) == |fraction.value|;
    }
  }

  /** `isDecimal` accepts nothing else: accepted text has well-formed parts
      and is the text of its parts. */
  lemma DecimalShape(s: string)
    requires IsDecimal(Some(s))
    ensures WellFormedParts(DecimalParts(s).1, DecimalParts(s).2)
    ensures s == DecimalText(DecimalParts(s).0, DecimalParts(s).1, DecimalParts(s).2)
  {
    SignedShape(s);
  }

  lemma SignedShape(s: string)
    requires MatchesDecimal(s)
    ensures WellFormedParts(DecimalParts(s).1, DecimalParts(s).2)
    ensures s == DecimalText(DecimalParts(s).0, DecimalParts(s).1, DecimalParts(s).2)
  {
    var negative := |s| > 0 && s[0] == '-';
    var t := if negative then s[1..] else s;
    UnsignedShape(t);
    var parts := UnsignedParts(t);
    assert DecimalParts(s) == (negative, parts.0, parts.1);
    assert t == UnsignedText(parts.0, parts.1);
    if negative {
      assert s == "-" + t;
    } else {
      assert s == "" + t;
    }
  }

  lemma UnsignedShape(t: string)
    requires MatchesUnsigned(t)
    ensures WellFormedParts(UnsignedParts(t).0, UnsignedParts(t).1)
    ensures t == UnsignedText(UnsignedParts(t).0, UnsignedParts(t).1)
  {
    var n := DigitRun(t);
    SplitAtPoint(t, n);
    if n < |t| {
      var f := t[n + 1..];
      assert DigitRun(f) == |f|;
    }
  }

  lemma SplitAtPoint(t: string, n: nat)
    requires n <= |t| && (n < |t| ==> t[n] == '.')
    ensures t == UnsignedText(t[..n], if n == |t| then None else Some(t[n + 1..]))
  {
    if n < |t| {
      var f := t[n + 1..];
      assert t == t[..n] + [t[n]] + f;
      assert [t[n]] == ".";
      assert t[..n] + [t[n]] + f == t[..n] + ("." + f);
    } else {
      assert t == t[..n] + "";
    }
  }

  /** Every numeric string is decimal. */
  lemma NumericIsDecimal(str: Option<string>)
    requires IsNumeric(str)
    ensures IsDecimal(str)
  {
    var s := str.value;
    assert s[0] != '-' by {
      assert IsDigit(s[0]);
    }
  }

  // ---------------------------------------------------------------------------
  // padString

  /** `n` copies of `c`. */
  function Repeat(c: char, n: nat): (r: string)
    ensures |r| == n && forall i :: 0 <= i < n ==> r[i] == c
  {
    seq(n, _ => c)
  }

  /** `padString`: null counts as "". Text at least `length` long comes back
      as is; otherwise pad characters fill it up to `length`, in front or
      behind. */
  function PadString(str: Option<string>, length: int, padChar: char, leftPad: bool): (r: string)
    ensures var s := if str.None? then "" else str.value;
            && |r| == (if |s| >= length then |s| else length)
            && (leftPad ==> r[|r| - |s|..] == s && forall i :: 0 <= i < |r| - |s| ==> r[i] == padChar)
            && (!leftPad ==> r[..|s|] == s && forall i :: |s| <= i < |r| ==> r[i] == padChar)
  {
    var s := if str.None? then "" else str.value;
    if |s| >= length then s
    else if leftPad then Repeat(padChar, length - |s|) + s
    else s + Repeat(padChar, length - |s|)
  }

  /** Padding is idempotent, and padding to a shorter length changes nothing. */
  lemma PadStringIdempotent(str: Option<string>, length: int, shorter: int, padChar: char, leftPad: bool)
    requires shorter <= length
    ensures PadString(Some(PadString(str, length, padChar, leftPad)), length, padChar, leftPad) ==
            PadString(str, length, padChar, leftPad)
    ensures PadString(Some(PadString(str, length, padChar, leftPad)), shorter, padChar, leftPad) ==
            PadString(str, length, padChar, leftPad)
  {
  }

  // ---------------------------------------------------------------------------
  // toSafeFileName

  /** `[a-zA-Z0-9.-]`. */
  predicate IsSafeChar(c: char) {
    IsAlphanumeric(c) || c == '.' || c == '-'
  }

  /** What a safe file name may contain: safe characters and '_'. */
  predicate IsFileNameChar(c: char) {
    IsSafeChar(c) || c == '_'
  }

  /** `replaceAll("[^a-zA-Z0-9.-]", "_")`. */
  function ReplaceUnsafe(s: string): (r: string)
    ensures |r| == |s|
    ensures forall i :: 0 <= i < |s| ==> r[i] == if IsSafeChar(s[i]) then s[i] else '_'
  {
    seq(|s|, i requires 0 <= i < |s| => if IsSafeChar(s[i]) then s[i] else '_')
  }

  /** No two adjacent underscores. */
  predicate NoDoubleUnderscore(s: string) {
    forall i :: 0 <= i < |s| - 1 ==> !(s[i] == '_' && s[i + 1] == '_')
  }

  /** `replaceAll("_{2,}", "_")`: each run of underscores becomes one. */
  function CollapseUnderscores(s: string): (r: string)
    ensures |r| <= |s|
    ensures NoDoubleUnderscore(r)
  {
    if |s| >= 2 && s[0] == '_' && s[1] == '_' then CollapseUnderscores(s[1..])
    else if s == [] then []
    else [s[0]] + CollapseUnderscores(s[1..])
  }

  /** Collapsing introduces no character that was not there. */
  lemma {:induction false} CollapseKeepsChars(s: string)
    requires forall i :: 0 <= i < |s| ==> IsFileNameChar(s[i])
    ensures forall i :: 0 <= i < |CollapseUnderscores(s)| ==> IsFileNameChar(CollapseUnderscores(s)[i])
    decreases |s|
  {
    if s != [] {
      CollapseKeepsChars(s[1..]);
    }
  }

  /** Collapsing text that has no double underscore changes nothing. */
  lemma {:induction false} CollapseFixes(s: string)
    requires NoDoubleUnderscore(s)
    ensures CollapseUnderscores(s) == s
    decreases |s|
  {
    if s != [] {
      CollapseFixes(s[1..]);
    }
  }

  /** `replaceAll("^_+|_+$", "")`: the runs of underscores at both ends go. */
  function StripUnderscores(s: string): (r: string)
    ensures |r| <= |s|
    ensures r == [] || (r[0] != '_' && r[|r| - 1] != '_')
  {
    DropTrailing(DropLeading(s, '_'), '_')
  }

  /** Stripping keeps a piece of the text from the middle, so it keeps every
      property of characters and of neighbouring pairs. */
  lemma StripKeepsSafety(s: string)
    requires forall i :: 0 <= i < |s| ==> IsFileNameChar(s[i])
    requires NoDoubleUnderscore(s)
    ensures forall i :: 0 <= i < |StripUnderscores(s)| ==> IsFileNameChar(StripUnderscores(s)[i])
    ensures NoDoubleUnderscore(StripUnderscores(s))
  {
    var a := DropLeading(s, '_');
    var r := DropTrailing(a, '_');
    var k := |s| - |a|;
    assert r == s[k..k + |r|];
    SliceKeepsSafety(s, k, k + |r|);
  }

  lemma SliceKeepsSafety(s: string, lo: nat, hi: nat)
    requires lo <= hi <= |s|
    requires forall i :: 0 <= i < |s| ==> IsFileNameChar(s[i])
    requires NoDoubleUnderscore(s)
    ensures forall i :: 0 <= i < hi - lo ==> IsFileNameChar(s[lo..hi][i])
    ensures NoDoubleUnderscore(s[lo..hi])
  {
    var t := s[lo..hi];
    forall i | 0 <= i < |t| - 1 ensures !(t[i] == '_' && t[i + 1] == '_') {
      assert t[i] == s[lo + i] && t[i + 1] == s[lo + i + 1];
    }
  }

  const Untitled := "untitled"

  /** `toSafeFileName`: "untitled" for blank text and for text with nothing
      left after cleaning. */
  function ToSafeFileName(str: Option<string>): (r: string)
    ensures |r| > 0
  {
    if IsBlank(str) then Untitled
    else
      var cleaned := StripUnderscores(CollapseUnderscores(ReplaceUnsafe(str.value)));
      if cleaned == [] then Untitled else cleaned
  }

  /** A name `toSafeFileName` returns as is. */
  predicate IsSafeFileName(s: string) {
    && |s| > 0
    && (forall i :: 0 <= i < |s| ==> IsFileNameChar(s[i]))
    && NoDoubleUnderscore(s)
    && s[0] != '_' && s[|s| - 1] != '_'
  }

  /** The result is always a safe name: non-empty, only `[A-Za-z0-9._-]`, no
      "__", and no '_' at either end. */
  lemma ToSafeFileNameIsSafe(str: Option<string>)
    ensures IsSafeFileName(ToSafeFileName(str))
  {
    if !IsBlank(str) {
      CleanedIsSafe(str.value);
    }
  }

  /** Replacing, collapsing and stripping leave only name characters, no
      "__" and no '_' at either end. */
  lemma CleanedIsSafe(s: string)
    ensures var cleaned := StripUnderscores(CollapseUnderscores(ReplaceUnsafe(s)));
      (forall i :: 0 <= i < |cleaned| ==> IsFileNameChar(cleaned[i])) && NoDoubleUnderscore(cleaned)
  {
    var replaced := ReplaceUnsafe(s);
    CollapseKeepsChars(replaced);
    StripKeepsSafety(CollapseUnderscores(replaced));
  }

  /** A safe name is its own safe name, so the conversion is idempotent. */
  lemma SafeFileNameFixes(s: string)
    requires IsSafeFileName(s)
    ensures ToSafeFileName(Some(s)) == s
  {
    assert !IsTrimmable(s[0]);
    TrimEmptyIff(s);
    SafeCleansToItself(s);
  }

  /** Replacing, collapsing and stripping leave a safe name alone. */
  lemma SafeCleansToItself(s: string)
    requires IsSafeFileName(s)
    ensures StripUnderscores(CollapseUnderscores(ReplaceUnsafe(s))) == s
  {
    assert ReplaceUnsafe(s) == s;
    CollapseFixes(s);
    assert DropLeading(s, '_') == s;
  }

  lemma ToSafeFileNameIdempotent(str: Option<string>)
    ensures ToSafeFileName(Some(ToSafeFileName(str))) == ToSafeFileName(str)
  {
    ToSafeFileNameIsSafe(str);
    SafeFileNameFixes(ToSafeFileName(str));
  }

  /** The safe characters of `s`, in order. */
  function SafeChars(s: string): string {
    if s == [] then [] else (if IsSafeChar(s[0]) then [s[0]] else []) + SafeChars(s[1..])
  }

  /** `s` without its underscores. */
  function NonUnderscores(s: string): string {
    if s == [] then [] else (if s[0] == '_' then [] else [s[0]]) + NonUnderscores(s[1..])
  }

  lemma {:induction false} NonUnderscoresAppend(a: string, b: string)
    ensures NonUnderscores(a + b) == NonUnderscores(a) + NonUnderscores(b)
    decreases |a|
  {
    if a == [] {
      assert a + b == b;
    } else {
      assert (a + b)[1..] == a[1..] + b;
      NonUnderscoresAppend(a[1..], b);
    }
  }

  /** Text of underscores only has nothing left without them. */
  lemma {:induction false} NonUnderscoresOfUnderscores(s: string)
    requires forall i :: 0 <= i < |s| ==> s[i] == '_'
    ensures NonUnderscores(s) == []
    decreases |s|
  {
    if s != [] {
      NonUnderscoresOfUnderscores(s[1..]);
    }
  }

  /** Replacing turns exactly the unsafe characters into underscores. */
  lemma {:induction false} ReplaceKeepsSafeChars(s: string)
    ensures NonUnderscores(ReplaceUnsafe(s)) == SafeChars(s)
    decreases |s|
  {
    if s != [] {
      assert ReplaceUnsafe(s)[1..] == ReplaceUnsafe(s[1..]);
      ReplaceKeepsSafeChars(s[1..]);
    }
  }

  /** Collapsing only removes underscores. */
  lemma {:induction false} CollapseKeepsNonUnderscores(s: string)
    ensures NonUnderscores(CollapseUnderscores(s)) == NonUnderscores(s)
    decreases |s|
  {
    if s != [] {
      CollapseKeepsNonUnderscores(s[1..]);
    }
  }

  /** Dropping leading underscores keeps the other characters. */
  lemma DropLeadingKeepsNonUnderscores(s: string)
    ensures NonUnderscores(DropLeading(s, '_')) == NonUnderscores(s)
  {
    var a := DropLeading(s, '_');
    var k := |s| - |a|;
    assert s == s[..k] + a;
    NonUnderscoresAppend(s[..k], a);
    NonUnderscoresOfUnderscores(s[..k]);
  }

  /** Dropping trailing underscores keeps the other characters. */
  lemma DropTrailingKeepsNonUnderscores(s: string)
    ensures NonUnderscores(DropTrailing(s, '_')) == NonUnderscores(s)
  {
    var r := DropTrailing(s, '_');
    assert s == r + s[|r|..];
    NonUnderscoresAppend(r, s[|r|..]);
    NonUnderscoresOfUnderscores(s[|r|..]);
  }

  /** Stripping only removes underscores. */
  lemma StripKeepsNonUnderscores(s: string)
    ensures NonUnderscores(StripUnderscores(s)) == NonUnderscores(s)
  {
    DropLeadingKeepsNonUnderscores(s);
    DropTrailingKeepsNonUnderscores(DropLeading(s, '_'));
  }

  /** The two "untitled" fallbacks: blank text, and text without a character
      of `[A-Za-z0-9.-]`. Otherwise the name keeps exactly the input's safe
      characters, in order, and adds only underscores. */
  lemma ToSafeFileNameFallback(str: Option<string>)
    ensures IsBlank(str) ==> ToSafeFileName(str) == Untitled
    ensures !IsBlank(str) && SafeChars(str.value) == [] ==> ToSafeFileName(str) == Untitled
    ensures !IsBlank(str) && SafeChars(str.value) != [] ==>
      NonUnderscores(ToSafeFileName(str)) == SafeChars(str.value)
  {
    if !IsBlank(str) {
      var replaced := ReplaceUnsafe(str.value);
      var collapsed := CollapseUnderscores(replaced);
      var cleaned := StripUnderscores(collapsed);
      ReplaceKeepsSafeChars(str.value);
      CollapseKeepsNonUnderscores(replaced);
      StripKeepsNonUnderscores(collapsed);
      assert NonUnderscores(cleaned) == SafeChars(str.value);
      if cleaned != [] {
        assert NonUnderscores(cleaned) == [cleaned[0]] + NonUnderscores(cleaned[1..]);
      }
    }
  }

  // ---------------------------------------------------------------------------
  // join

  /** `StringBuilder.append` of a possibly null delimiter. */
  function DelimiterText(delimiter: Option<string>): string {
    if delimiter.None? then "null" else delimiter.value
  }

  /** The loop of `join` from index `i`: each non-null entry, followed by the
      delimiter unless it is the last entry of the whole array. */
  function JoinFrom(delimiter: string, strings: seq<Option<string>>, i: nat): string
    requires i <= |strings|
    decreases |strings| - i
  {
    if i == |strings| then ""
    else if strings[i].None? then JoinFrom(delimiter, strings, i + 1)
    else strings[i].value + (if i < |strings| - 1 then delimiter else "") + JoinFrom(delimiter, strings, i + 1)
  }

  /** `join` as written: "" for a null or empty array, else the loop. */
  function Join(delimiter: Option<string>, strings: Option<seq<Option<string>>>): (r: string)
    ensures strings.None? || strings.value == [] ==> r == ""
  {
    if strings.None? || strings.value == [] then ""
    else JoinFrom(DelimiterText(delimiter), strings.value, 0)
  }

  /** The entries that are not null, in order. */
  function NonNull(strings: seq<Option<string>>): (r: seq<string>)
    ensures |r| <= |strings|
  {
    if strings == [] then []
    else if strings[0].None? then NonNull(strings[1..])
    else [strings[0].value] + NonNull(strings[1..])
  }

  /** `parts` with `delimiter` between neighbours. */
  function Intercalate(delimiter: string, parts: seq<string>): string {
    if parts == [] then ""
    else if |parts| == 1 then parts[0]
    else parts[0] + delimiter + Intercalate(delimiter, parts[1..])
  }

  /** The join the helper is meant to compute: the non-null entries with the
      delimiter between neighbours. */
  function JoinNonNull(delimiter: Option<string>, strings: Option<seq<Option<string>>>): (r: string)
    ensures strings.None? ==> r == ""
  {
    if strings.None? then "" else Intercalate(DelimiterText(delimiter), NonNull(strings.value))
  }

  /** The loop matches the intended join whenever the last entry is not null,
      and otherwise (if some entry is) leaves one delimiter too many. */
  lemma {:induction false} JoinFromSpec(delimiter: string, strings: seq<Option<string>>, i: nat)
    requires i < |strings|
    ensures strings[|strings| - 1].Some? ==>
              JoinFrom(delimiter, strings, i) == Intercalate(delimiter, NonNull(strings[i..]))
    ensures strings[|strings| - 1].None? && NonNull(strings[i..]) != [] ==>
              JoinFrom(delimiter, strings, i) == Intercalate(delimiter, NonNull(strings[i..])) + delimiter
    ensures strings[|strings| - 1].None? && NonNull(strings[i..]) == [] ==>
              JoinFrom(delimiter, strings, i) == ""
    decreases |strings| - i
  {
    assert strings[i..][1..] == strings[i + 1..];
    if i < |strings| - 1 {
      JoinFromSpec(delimiter, strings, i + 1);
      if strings[i].Some? && NonNull(strings[i + 1..]) != [] {
        assert NonNull(strings[i..]) == [strings[i].value] + NonNull(strings[i + 1..]);
        assert NonNull(strings[i..])[1..] == NonNull(strings[i + 1..]);
      }
      if strings[i].Some? && NonNull(strings[i + 1..]) == [] && strings[|strings| - 1].Some? {
        assert strings[|strings| - 1] == strings[i + 1..][|strings| - 1 - (i + 1)];
        NonNullEmpty(strings[i + 1..], |strings| - 1 - (i + 1));
      }
    } else {
      assert strings[i + 1..] == [];
      assert JoinFrom(delimiter, strings, i + 1) == "";
    }
  }

  /** A sequence with a non-null entry has a non-null part. */
  lemma {:induction false} NonNullEmpty(strings: seq<Option<string>>, k: nat)
    requires k < |strings| && strings[k].Some?
    ensures NonNull(strings) != []
    decreases k
  {
    if strings[0].None? {
      assert strings[1..][k - 1] == strings[k];
      NonNullEmpty(strings[1..], k - 1);
    }
  }

  /** Without null entries `join` puts the delimiter exactly between
      neighbours. */
  lemma JoinWithoutNulls(delimiter: Option<string>, strings: seq<Option<string>>)
    requires |strings| > 0 && strings[|strings| - 1].Some?
    ensures Join(delimiter, Some(strings)) == JoinNonNull(delimiter, Some(strings))
  {
    JoinFromSpec(DelimiterText(delimiter), strings, 0);
    assert strings[0..] == strings;
  }

  /** A trailing null leaves a delimiter at the end: `join(",", "a", null)`
      is "a," where "a" is meant. */
  lemma JoinTrailingNull(delimiter: Option<string>, strings: seq<Option<string>>)
    requires |strings| > 0 && strings[|strings| - 1].None? && NonNull(strings) != []
    ensures Join(delimiter, Some(strings)) == JoinNonNull(delimiter, Some(strings)) + DelimiterText(delimiter)
  {
    JoinFromSpec(DelimiterText(delimiter), strings, 0);
    assert strings[0..] == strings;
  }

  lemma JoinTrailingNullExample()
    ensures Join(Some(","), Some([Some("a"), None])) == "a,"
    ensures JoinNonNull(Some(","), Some([Some("a"), None])) == "a"
  {
    var strings: seq<Option<string>> := [Some("a"), None];
    assert NonNull(strings[1..]) == [];
    JoinTrailingNull(Some(","), strings);
  }

  // ---------------------------------------------------------------------------
  // splitCamelCase

  /** `replaceAll("([a-z])([A-Z])", "$1 $2")`. A match never consumes the
      lower-case letter of the next pair (its second letter is upper case), so
      every adjacent pair gets its space. */
  function SplitCamel(s: string): (r: string)
    ensures |s| > 0 ==> |r| > 0 && r[0] == s[0]
  {
    if |s| < 2 then s
    else if IsLower(s[0]) && IsUpper(s[1]) then [s[0], ' '] + SplitCamel(s[1..])
    else [s[0]] + SplitCamel(s[1..])
  }

  /** `splitCamelCase`. */
  function SplitCamelCase(str: Option<string>): (r: Option<string>)
    ensures IsBlank(str) ==> r == str
    ensures str.Some? ==> r.Some?
  {
    if IsBlank(str) then str else Some(SplitCamel(str.value))
  }

  /** The number of adjacent `[a-z][A-Z]` pairs. */
  function CamelPairs(s: string): nat {
    if |s| < 2 then 0
    else (if IsLower(s[0]) && IsUpper(s[1]) then 1 else 0) + CamelPairs(s[1..])
  }

  /** No adjacent `[a-z][A-Z]` pair. */
  predicate NoCamelPair(s: string) {
    forall i :: 0 <= i < |s| - 1 ==> !(IsLower(s[i]) && IsUpper(s[i + 1]))
  }

  /** `s` without its spaces. */
  function NoSpaces(s: string): string {
    if s == [] then [] else (if s[0] == ' ' then [] else [s[0]]) + NoSpaces(s[1..])
  }

  /** Splitting inserts one space per pair and nothing else: the result is
      longer by the number of pairs, has no pair left, and loses its spaces
      into the same text as the input. */
  lemma {:induction false} SplitCamelSpec(s: string)
    ensures |SplitCamel(s)| == |s| + CamelPairs(s)
    ensures NoCamelPair(SplitCamel(s))
    ensures NoSpaces(SplitCamel(s)) == NoSpaces(s)
    decreases |s|
  {
    if |s| >= 2 {
      SplitCamelSpec(s[1..]);
      var rest := SplitCamel(s[1..]);
      assert rest[0] == s[1];
      if IsLower(s[0]) && IsUpper(s[1]) {
        var r := [s[0], ' '] + rest;
        assert r[2..] == rest;
        assert r[1..] == [' '] + rest;
        assert NoSpaces(r) == [s[0]] + NoSpaces([' '] + rest);
        assert ([' '] + rest)[1..] == rest;
      } else {
        var r := [s[0]] + rest;
        assert r[1..] == rest;
      }
    } else if |s| == 1 {
      assert s[1..] == [];
    }
  }

  /** 1 when `s` starts with a pair, else 0. */
  function LeadPair(s: string): nat
    requires |s| >= 2
  {
    if IsLower(s[0]) && IsUpper(s[1]) then 1 else 0
  }

  /** Counting the pairs of a prefix from its first character. */
  lemma CamelPairsPrefix(s: string, n: nat)
    requires 2 <= n <= |s|
    ensures CamelPairs(s[..n]) == LeadPair(s) + CamelPairs(s[1..][..n - 1])
  {
    assert s[..n][1..] == s[1..][..n - 1];
  }

  /** Splitting from the first character: it, then a space if it starts a
      pair, then the split of the rest, whose k-th character sits at
      `1 + LeadPair(s) + k`. */
  lemma SplitCamelLead(s: string, k: nat)
    requires |s| >= 2
    ensures |SplitCamel(s)| == 1 + LeadPair(s) + |SplitCamel(s[1..])|
    ensures SplitCamel(s)[0] == s[0]
    ensures LeadPair(s) == 1 ==> SplitCamel(s)[1] == ' '
    ensures k < |SplitCamel(s[1..])| ==> SplitCamel(s)[1 + LeadPair(s) + k] == SplitCamel(s[1..])[k]
  {
  }

  /** Where each character lands: `s[i]` moves right by the number of pairs
      that end at or before it; the count steps up at `i + 1` exactly when
      `s[i]` starts a pair, and then a space sits right after `s[i]`. With the
      length in `SplitCamelSpec` this fixes every position of the result. */
  lemma {:induction false} SplitCamelAt(s: string, i: nat)
    requires i < |s|
    ensures i + CamelPairs(s[..i + 1]) < |SplitCamel(s)|
    ensures SplitCamel(s)[i + CamelPairs(s[..i + 1])] == s[i]
    ensures i + 1 < |s| ==> i + 1 + CamelPairs(s[..i + 2]) < |SplitCamel(s)|
    ensures i + 1 < |s| ==>
      (CamelPairs(s[..i + 2]) == CamelPairs(s[..i + 1]) + 1 <==> IsLower(s[i]) && IsUpper(s[i + 1]))
    ensures i + 1 < |s| ==>
      (CamelPairs(s[..i + 2]) == CamelPairs(s[..i + 1]) <==> !(IsLower(s[i]) && IsUpper(s[i + 1])))
    ensures i + 1 < |s| && IsLower(s[i]) && IsUpper(s[i + 1]) ==>
      SplitCamel(s)[i + CamelPairs(s[..i + 1]) + 1] == ' '
    decreases i, 1
  {
    if |s| < 2 {
      assert CamelPairs(s[..1]) == 0;
    } else if i == 0 {
      SplitCamelFirst(s);
    } else {
      SplitCamelAfterFirst(s, i);
    }
  }

  /** `SplitCamelAt` for the first character. */
  lemma SplitCamelFirst(s: string)
    requires |s| >= 2
    ensures CamelPairs(s[..1]) == 0
    ensures 1 + CamelPairs(s[..2]) < |SplitCamel(s)|
    ensures SplitCamel(s)[0] == s[0]
    ensures CamelPairs(s[..2]) == LeadPair(s)
    ensures IsLower(s[0]) && IsUpper(s[1]) ==> SplitCamel(s)[1] == ' '
  {
    SplitCamelLead(s, 0);
    CamelPairsPrefix(s, 2);
    assert CamelPairs(s[1..][..1]) == 0;
  }

  /** `SplitCamelAt` past the first character, from the same fact about the
      rest of the text. */
  lemma {:induction false} SplitCamelAfterFirst(s: string, i: nat)
    requires 2 <= |s| && 0 < i < |s|
    ensures i + CamelPairs(s[..i + 1]) < |SplitCamel(s)|
    ensures SplitCamel(s)[i + CamelPairs(s[..i + 1])] == s[i]
    ensures i + 1 < |s| ==> i + 1 + CamelPairs(s[..i + 2]) < |SplitCamel(s)|
    ensures i + 1 < |s| ==>
      (CamelPairs(s[..i + 2]) == CamelPairs(s[..i + 1]) + 1 <==> IsLower(s[i]) && IsUpper(s[i + 1]))
    ensures i + 1 < |s| ==>
      (CamelPairs(s[..i + 2]) == CamelPairs(s[..i + 1]) <==> !(IsLower(s[i]) && IsUpper(s[i + 1])))
    ensures i + 1 < |s| && IsLower(s[i]) && IsUpper(s[i + 1]) ==>
      SplitCamel(s)[i + CamelPairs(s[..i + 1]) + 1] == ' '
    decreases i, 0
  {
    var t := s[1..];
    SplitCamelAt(t, i - 1);
    CamelPairsPrefix(s, i + 1);
    var lead, here := LeadPair(s), CamelPairs(t[..i]);
    SplitCamelLead(s, i - 1 + here);
    if i + 1 < |s| {
      CamelPairsPrefix(s, i + 2);
      SplitCamelLead(s, i + here);
    }
  }

  /** Text without pairs comes back unchanged, so splitting is idempotent. */
  lemma {:induction false} SplitCamelFixes(s: string)
    requires NoCamelPair(s)
    ensures SplitCamel(s) == s
    decreases |s|
  {
    if |s| >= 2 {
      SplitCamelFixes(s[1..]);
    }
  }

  lemma SplitCamelCaseIdempotent(str: Option<string>)
    ensures SplitCamelCase(SplitCamelCase(str)) == SplitCamelCase(str)
  {
    if !IsBlank(str) {
      var r := SplitCamel(str.value);
      SplitCamelSpec(str.value);
      SplitCamelFixes(r);
    }
  }
}

=== FILE: unit_category.dfy ===
/** The fixed registry of measurement categories and the units each supports
    (the `UnitCategory` enum). */
module UnitCategory {
  import opened Base
  import opened JavaLang

  /** The five enum constants, in declaration order. */
  datatype Category = Length | Weight | Temperature | Volume | Area {

    function DisplayName(): string {
      match this
      case Length => "Length"
      case Weight => "Weight"
      case Temperature => "Temperature"
      case Volume => "Volume"
      case Area => "Area"
    }

    function Description(): string {
      match this
      case Length => "Distance measurements"
      case Weight => "Mass measurements"
      case Temperature => "Temperature scales"
      case Volume => "Capacity measurements"
      case Area => "Surface area measurements"
    }

    function SupportedUnits(): seq<string> {
      match this
      case Length => ["Meter", "Kilometer", "Centimeter", "Millimeter", "Mile", "Yard", "Foot", "Inch"]
      case Weight => ["Kilogram", "Gram", "Milligram", "Pound", "Ounce", "Ton"]
      case Temperature => ["Celsius", "Fahrenheit", "Kelvin"]
      case Volume => ["Liter", "Milliliter", "Gallon", "Cubic Meter"]
      case Area => ["Square Meter", "Square Kilometer", "Acre", "Hectare"]
    }

    /** The unit every conversion of this category passes through. */
    function CanonicalUnit(): (u: string)
      ensures u in SupportedUnits() && u == SupportedUnits()[0]
    {
      match this
      case Length => "Meter"
      case Weight => "Kilogram"
      case Temperature => "Celsius"
      case Volume => "Liter"
      case Area => "Square Meter"
    }

    /** `supportsUnit`: `List.contains`. */
    predicate SupportsUnit(unit: string) {
      unit in SupportedUnits()
    }

    /** `getUnitCount`. */
    function UnitCount(): nat {
      |SupportedUnits()|
    }
  }

  /** `UnitCategory.values()`. */
  const Values: seq<Category> := [Length, Weight, Temperature, Volume, Area]

  lemma ValuesEnumerateCategories(c: Category)
    ensures c in Values
    ensures |Values| == 5
  {
  }

  /** The first category of `cats` whose display name equals `name` ignoring case. */
  function FindByName(cats: seq<Category>, name: string): (r: Option<Category>)
    ensures r.Some? ==> r.value in cats && EqualsIgnoreCase(r.value.DisplayName(), name)
    ensures r.None? <==> forall i :: 0 <= i < |cats| ==> !EqualsIgnoreCase(cats[i].DisplayName(), name)
    ensures r.Some? ==> exists i :: 0 <= i < |cats| && cats[i] == r.value &&
                          forall j :: 0 <= j < i ==> !EqualsIgnoreCase(cats[j].DisplayName(), name)
  {
    if |cats| == 0 then None
    else if EqualsIgnoreCase(cats[0].DisplayName(), name) then Some(cats[0])
    else
      var r := FindByName(cats[1..], name);
      if r.Some? then
        var i :| 0 <= i < |cats[1..]| && cats[1..][i] == r.value &&
                 forall j :: 0 <= j < i ==> !EqualsIgnoreCase(cats[1..][j].DisplayName(), name);
        assert cats[i + 1] == r.value;
        r
      else r
  }

  /** `fromDisplayName`: the first category, in declaration order, whose display
      name matches ignoring case; `None` (the source's `null`) if none does. */
  function FromDisplayName(name: string): (r: Option<Category>)
    ensures r.Some? ==> EqualsIgnoreCase(r.value.DisplayName(), name)
    ensures r.None? <==> forall c: Category :: !EqualsIgnoreCase(c.DisplayName(), name)
  {
    var r := FindByName(Values, name);
    assert r.None? ==> forall c: Category :: !EqualsIgnoreCase(c.DisplayName(), name) by {
      if r.None? {
        forall c: Category ensures !EqualsIgnoreCase(c.DisplayName(), name) {
          ValuesEnumerateCategories(c);
        }
      }
    }
    r
  }

  /** `getAllDisplayNames`: the display names in declaration order. */
  function AllDisplayNames(): (r: seq<string>)
    ensures |r| == |Values|
    ensures forall i :: 0 <= i < |Values| ==> r[i] == Values[i].DisplayName()
  {
    seq(|Values|, i requires 0 <= i < |Values| => Values[i].DisplayName())
  }

  /** `isValidUnitForCategory`. */
  predicate IsValidUnitForCategory(categoryName: string, unit: string) {
    var c := FromDisplayName(categoryName);
    c.Some? && c.value.SupportsUnit(unit)
  }

  // ---------------------------------------------------------------------------
  // Properties of the registry

  /** There are exactly five categories, listed as Length, Weight, Temperature,
      Volume, Area. */
  lemma DisplayNamesInDeclarationOrder()
    ensures AllDisplayNames() == ["Length", "Weight", "Temperature", "Volume", "Area"]
  {
  }

  /** No unit is listed twice within one category. */
  lemma UnitsDistinct(c: Category)
    ensures forall i, j :: 0 <= i < j < |c.SupportedUnits()| ==> c.SupportedUnits()[i] != c.SupportedUnits()[j]
  {
  }

  /** No unit belongs to two categories. */
  lemma UnitsDisjoint(c: Category, d: Category, unit: string)
    requires c != d
    ensures !(c.SupportsUnit(unit) && d.SupportsUnit(unit))
  {
  }

  /** Display names differ even ignoring case, so every exact display name (and
      every case variant of it) finds its own category. */
  lemma FromDisplayNameFindsCategory(c: Category, name: string)
    requires EqualsIgnoreCase(c.DisplayName(), name)
    ensures FromDisplayName(name) == Some(c)
  {
    var r := FromDisplayName(name);
    assert r.Some?;
    if r.value != c {
      assert LowerCase(r.value.DisplayName()) == LowerCase(c.DisplayName());
      DistinctLowerNames(r.value, c);
    }
  }

  lemma DistinctLowerNames(c: Category, d: Category)
    requires c != d
    ensures LowerCase(c.DisplayName()) != LowerCase(d.DisplayName())
  {
    var a := LowerCase(c.DisplayName());
    var b := LowerCase(d.DisplayName());
    if |a| == |b| {
      // Length/Weight (6 letters) and Volume/Length/Weight differ in the first letter.
      assert a[0] == ToLower(c.DisplayName()[0]);
      assert b[0] == ToLower(d.DisplayName()[0]);
    }
  }

  /** `isValidUnitForCategory(n, u)` holds exactly when `fromDisplayName(n)` is
      non-null and that category lists `u`. */
  lemma ValidUnitIff(categoryName: string, unit: string)
    ensures IsValidUnitForCategory(categoryName, unit) <==>
            exists c: Category :: EqualsIgnoreCase(c.DisplayName(), categoryName) && c.SupportsUnit(unit)
  {
    if c: Category :| EqualsIgnoreCase(c.DisplayName(), categoryName) && c.SupportsUnit(unit) {
      FromDisplayNameFindsCategory(c, categoryName);
    }
  }
}
